=== FILE: README.md ===
# Turtle payouts and swap mints, modelled in Dafny

This project models two pieces of a Cardano payout/mint application.

**Adaptive payout batching** (`buildTxs`). A list of recipients is filtered down to those not yet paid. The unpaid records are cut into batches whose size is a fraction of the unpaid count. Each batch becomes one transaction: a required-inputs map, plus one output per record, where lovelace amounts under 1 ADA are raised to the floor or left out as a policy decides. Every confirmed batch stamps the matching recipients with the transaction hash. When the ledger rejects a transaction as too large, the two sizes in its error text scale the fraction down, and the whole run starts again on the partly stamped list. Any other error ends the run.

**Swap-record bookkeeping** (`mint` endpoint). A request is refused for the wrong method or an invalid, unburned, completed or empty swap record, with the checks made in a fixed order. Otherwise it mints `min(remaining, 10)` randomly drawn assets to the swap's address, skipping assets already on chain while untaken documents remain. It then records the new minted count and whether the swap is complete.

The model is purely functional:

- The ledger (build, sign, submit, confirm) is an oracle. `BuildTxs.Ledger` is a sequence of reply functions, and attempt `k` of a run is answered by the `k`-th one.
- The "raise to 1 ADA?" prompt is a `FloorPolicy` parameter.
- The 1-ADA floor is an integer lovelace parameter.
- The floating-point fraction is a rational `Fraction(num, den)`.
- Random document draws are a finite sequence of indices.
- The on-chain asset lookup is a predicate parameter.

Files: `options.dfy`, `arith.dfy` (facts about products and division), `text.dfy` (the JavaScript string operations the parser uses), `batching.dfy`, `recipients.dfy`, `assembly.dfy`, `size_error.dfy`, `build_txs.dfy` and `mint.dfy`.

Behaviours of the code worth knowing, all of them modelled as written:

- Ten unpaid records with a reported 16384/21861 give batches of 7 and 3, as `floor(10 × 16384 / 21861) = 7`.
- The batch size is not clamped to 1. A size of 0 with records still unpaid makes the planning loop run forever, which is modelled as the outcome `Hangs`.
- A record the floor policy excludes still gets the batch's hash. Stamping matches any record with the same (address, token, amount) as a batch record.
- A raised record keeps its original amount.
- A failure other than the size error rethrows the error alone, and no stamps from any pass of the call are returned: a retry runs inside the earlier pass's `catch`, so its error passes out through that one too.
- When the draw again after an on-chain hit finds every asset document taken, the stack overflow it runs into is swallowed and the on-chain asset is minted again. The same overflow on the first draw of an iteration answers 500.

## Model

| member | source | states |
|---|---|---|
| Recipients.Unpaid | src/functions/buildTxs.ts:21 | the unpaid list holds exactly the records without a truthy transaction id, and is no longer than the input |
| Recipients.UnpaidAppend | src/functions/buildTxs.ts:21 | the filter works piecewise over a concatenation, so it keeps the records' relative order |
| Recipients.UnpaidOfPaid | src/functions/buildTxs.ts:21 | a list whose records are all paid has an empty unpaid list |
| Batching.BatchSize | src/functions/buildTxs.ts:22 | with a truthy fraction the batch size is the floor of fraction × unpaid count; with an absent or zero fraction it is the unpaid count |
| Batching.BatchSizeAtMostCount | src/functions/buildTxs.ts:22 | a fraction of at most one never asks for more records than there are |
| Batching.Partition | src/functions/buildTxs.ts:25-27 | there are no batches exactly when there are no records, and every batch holds between 1 and `size` records |
| Batching.PartitionFlatten | src/functions/buildTxs.ts:25-27 | the batches laid end to end give back the unpaid list |
| Batching.PartitionFull | src/functions/buildTxs.ts:25-27 | every batch but the last holds exactly `size` records |
| Batching.PartitionCount | src/functions/buildTxs.ts:25-27 | there are ceil(count / size) batches |
| Batching.PartitionSlice | src/functions/buildTxs.ts:25-27 | batch k is the contiguous slice from k × size to (k + 1) × size, cut off at the end of the list |
| Batching.PlanBatches | src/functions/buildTxs.ts:25-27 | the source's loop, with `i += size` and end index `(i / size + 1) * size`, plans exactly `Partition` |
| Assembly.RequiredInputs | src/functions/buildTxs.ts:33 | the map has one key per token id that occurs in the batch |
| Assembly.RequiredInputsLastWins | src/functions/buildTxs.ts:33 | each token's value is the amount of the last batch record with that token |
| Assembly.SameTokenNotSummed | src/functions/buildTxs.ts:33 | two records of one token ask for the second amount, not the sum |
| Assembly.PayoutOutput | src/functions/buildTxs.ts:36-59 | a record's output goes to its address; it is omitted exactly when a sub-floor lovelace amount is excluded by the policy; every other lovelace record yields `SendLovelace(address, max(amount, floor))`; any other token sends its exact quantity |
| Assembly.Kept | src/functions/buildTxs.ts:36-60 | the records that get an output are exactly the batch records the floor policy does not exclude, never more than the batch; with no exclusion they are the whole batch |
| Assembly.KeptOne | src/functions/buildTxs.ts:36-60 | a single record gets an output exactly when the floor policy does not exclude it |
| Assembly.KeptAppend | src/functions/buildTxs.ts:36-60 | the kept records of a concatenation are the kept records of each part, one after the other, so batch order and repeats are kept |
| Assembly.Outputs | src/functions/buildTxs.ts:36-60 | the outputs are the output of each kept record, one per kept record, in batch order; so at most one per record, and every output comes from some batch record |
| Assembly.RepeatedPayoutSentTwice | src/functions/buildTxs.ts:36-60 | an excluded record followed by two records asking for the same lovelace payment at the floor gives exactly two identical outputs: the count follows the kept records, not the batch |
| Assembly.OutputsCover | src/functions/buildTxs.ts:36-60 | every record that is not excluded has its output in the transaction |
| Assembly.Assemble | src/functions/buildTxs.ts:31-60 | the request for a batch asks for exactly the batch's tokens as inputs, each at the amount of the last record with that token; its outputs are the output of each kept record in batch order, so every record the policy does not exclude is paid |
| Recipients.Mark | src/functions/buildTxs.ts:78-87 | stamping keeps the length and every record's (address, token, amount); records matching a batch record get the hash; all others are unchanged |
| Recipients.UnpaidDistinct | src/functions/buildTxs.ts:21 | filtering keeps distinct payment triples distinct |
| SizeError.IsSizeError | src/functions/buildTxs.ts:95 | a message is a size error exactly when "Maximum transaction size" occurs at some position of it |
| Text.ContainsIffOccurs | src/functions/buildTxs.ts:95 | the left-to-right scan finds the marker exactly when some position holds it |
| Text.Split | src/functions/buildTxs.ts:98 | splitting on a one-character separator yields at least one piece and no piece contains the separator |
| Text.JoinSplit | src/functions/buildTxs.ts:98 | joining the pieces with the separator gives the message back |
| Text.SplitAppend | src/functions/buildTxs.ts:98 | a separator between two texts splits them independently |
| Text.Digits | src/functions/buildTxs.ts:99 | stripping non-digits leaves only digits and never lengthens the token |
| Text.DecimalValueShow | src/functions/buildTxs.ts:99 | reading back the decimal rendering of a number gives the number |
| SizeError.NonzeroNumbers | src/functions/buildTxs.ts:99 | every number kept is positive, and there is at most one per token |
| SizeError.ParseSizeReport | src/functions/buildTxs.ts:98-99 | the parse yields a report exactly when the message holds at least two nonzero numbers |
| SizeError.ParseSizeMessage | src/functions/buildTxs.ts:95-99 | every message of the ledger's form, with digit-free text around it, is recognised as a size error and parses to the two sizes it reports |
| SizeError.OldDocumentedMessage | src/functions/buildTxs.ts:96 | the older message form parses to (16384, 21861) |
| SizeError.NewDocumentedMessage | src/functions/buildTxs.ts:97 | the newer message form parses to (16384, 19226) |
| SizeError.Corrected | src/functions/buildTxs.ts:102 | a failed parse gives a falsy fraction; a successful one gives a truthy fraction equal to old × max / curr, or max / curr when the old fraction is absent or zero |
| SizeError.CorrectedShrinks | src/functions/buildTxs.ts:102 | when found exceeds the limit, the corrected batch size is at most the previous one |
| SizeError.CorrectionCanKeepSize | src/functions/buildTxs.ts:102 | the corrected size need not drop: 79/100 of ten records and then a 100-over-95 report both give 7 |
| BuildTxs.Run | src/functions/buildTxs.ts:13-113 | an error that reaches the caller is never a size error; without any ledger answer a call completes exactly when nothing is unpaid |
| BuildTxs.RunBatches | src/functions/buildTxs.ts:30-111 | an error the batch loop rethrows is never a size error, since those restart the run |
| BuildTxs.NothingUnpaid | src/functions/buildTxs.ts:21-27 | with every record paid the run returns the list unchanged without asking the ledger |
| BuildTxs.RunKeepsRequests | src/functions/buildTxs.ts:78-108 | a completed run returns a list of the same length with every record's (address, token, amount) unchanged |
| BuildTxs.RunStampsEveryRecord | src/functions/buildTxs.ts:21-108 | in a completed run every record ends with a transaction id |
| BuildTxs.RunKeepsPaidRecords | src/functions/buildTxs.ts:78-87 | when no two records ask for the same payment, every record paid on entry comes back untouched |
| BuildTxs.PaidTwinIsRestamped | src/functions/buildTxs.ts:78-87 | a paid record that asks for the same payment as an unpaid one is stamped again with the new hash |
| BuildTxs.ExcludedRecordIsStamped | src/functions/buildTxs.ts:36-87 | a record the floor policy excludes has no output, yet is stamped once its batch confirms |
| BuildTxs.OneBatchWithoutFraction | src/functions/buildTxs.ts:22-90 | with an absent or zero fraction, one confirmed transaction stamps every unpaid record |
| BuildTxs.RetryAfterSizeError | src/functions/buildTxs.ts:95-108 | a size error on the first batch restarts the run on the same list with the fraction scaled by limit / found |
| BuildTxs.FirstBatchFails | src/functions/buildTxs.ts:91-111 | a refused batch leads to the retry when the message is a size error and to the rethrown error otherwise |
| BuildTxs.FailureAfterConfirmedBatch | src/functions/buildTxs.ts:78-111 | when the second batch fails after the first was confirmed, a size error restarts the run on the list as stamped for the first batch, and any other error ends the run with the error alone |
| BuildTxs.TenRecordsRetryPlan | src/functions/buildTxs.ts:22-27 | ten records and the report (16384, 21861) give batch size 7 and batches of 7 and 3 |
| BuildTxs.OversizeSingleRecordHangs | src/functions/buildTxs.ts:22-108 | a single record too large on its own gets batch size 0 after the retry, and the planning loop never ends |
| BuildTxs.RunHangs | src/functions/buildTxs.ts:22-25 | a batch size of 0 with records unpaid never leaves the planning loop |
| SwapMint.Remaining | src/pages/api/turtle/mint.ts:33 | the amount still owed is the amount to mint less the stored count, or the whole amount when no count is stored |
| SwapMint.Guard | src/pages/api/turtle/mint.ts:20-37 | a request proceeds exactly when it is a POST for an existing, burned, not yet completed record with a nonzero amount and nonzero remainder; any other method, and only such a method, is answered 405 (lines 130-132) |
| SwapMint.GuardOrder | src/pages/api/turtle/mint.ts:30-37 | the first failing check answers: a missing document is invalid; then burn before completion before amounts, and a zero amount owed or a zero remainder is refused as nothing to mint |
| SwapMint.MintCount | src/pages/api/turtle/mint.ts:74 | a call mints at most ten and at most what remains, none when nothing remains, and otherwise all that remains or ten |
| SwapMint.AfterMint | src/pages/api/turtle/mint.ts:113-116 | the stored count grows by the items minted; the record is complete exactly when the new count equals the amount owed |
| SwapMint.OneCallBounded | src/pages/api/turtle/mint.ts:113-116 | an accepted call never mints past the amount owed, and completes the record exactly when at most ten remained |
| SwapMint.OvermintedIsStuck | src/pages/api/turtle/mint.ts:33-37 | a record minted past its amount keeps being accepted, mints nothing and never completes |
| SwapMint.CallsComplete | src/pages/api/turtle/mint.ts:30-116 | a burned record owing a positive amount is accepted for exactly ceil(remaining / 10) calls, after which it is complete and refused as already completed |
| SwapMint.RandomDoc | src/pages/api/turtle/mint.ts:41-51 | a draw returns a pool document not already taken, consuming draws; it fails exactly when every draw is out of range or hits a taken document |
| SwapMint.NonMintedDoc | src/pages/api/turtle/mint.ts:53-70 | the pick overflows exactly when the pool is already exhausted, and the overflow carries the ids recorded so far; a document returned is from the pool and is not on chain unless the ids recorded now exhaust the pool |
| SwapMint.NonMintedDocRecords | src/pages/api/turtle/mint.ts:46-63 | a pick keeps the ids recorded before it as a prefix and records at least one more |
| SwapMint.NonMintedDocLast | src/pages/api/turtle/mint.ts:46-70 | the last id a pick records is that of the document it returns |
| SwapMint.NonMintedDocFirst | src/pages/api/turtle/mint.ts:46-54 | the first id a pick records is that of the first document drawn |
| SwapMint.NonMintedDocSkipped | src/pages/api/turtle/mint.ts:46-63 | every id a pick records before the last one is that of a pool document already on chain, recorded before its lookup |
| SwapMint.SkippedDocIsRecorded | src/pages/api/turtle/mint.ts:41-70 | with pool [a, b], a on chain and draws [0, 1], the pick returns b and records both a and b for deletion |
| SwapMint.NonMintedDocIds | src/pages/api/turtle/mint.ts:46-63 | every id a pick records belongs to a pool document |
| SwapMint.OnChainLastDocIsReturned | src/pages/api/turtle/mint.ts:53-70 | with one pool document already on chain, the swallowed overflow of the draw again returns that document |
| SwapMint.EmptyPoolOverflows | src/pages/api/turtle/mint.ts:41-54 | an empty pool overflows on the first draw |
| SwapMint.NoDuplicatesStep | src/pages/api/turtle/mint.ts:46-48 | with non-empty ids, recording a drawn id keeps the deletion list free of duplicates |
| SwapMint.SelectFrom | src/pages/api/turtle/mint.ts:72-83 | an overflow of the loop comes only with an exhausted pool |
| SwapMint.SelectFromKeeps | src/pages/api/turtle/mint.ts:72-83 | the loop's picks keep the items to the swap's address, for pool assets, on chain only under exhaustion, with a duplicate-free list of pool ids that is at least as long; an overflow carries such a list too |
| SwapMint.SelectionFacts | src/pages/api/turtle/mint.ts:72-83 | a count of zero mints nothing and records nothing; a finished loop yields `count` items to the swap's address for pool assets, on chain only under exhaustion, and a duplicate-free list of pool ids; an overflow needs a positive count and an exhausted pool |
| SwapMint.GoodDrawsSelect | src/pages/api/turtle/mint.ts:72-83 | draws that hit distinct untaken documents not on chain make the loop pick exactly those documents, in order, and record their ids |
| SwapMint.GoodSelection | src/pages/api/turtle/mint.ts:72-83 | from nothing recorded, good draws select exactly the drawn documents and their ids |
| SwapMint.SelectDocs | src/pages/api/turtle/mint.ts:72-83 | the loop, run with a counter, ends with exactly the outcome `Selection` defines: the picked items and ids, the overflow of a first draw, or running out of draws |
| SwapMint.Handle | src/pages/api/turtle/mint.ts:16-140 | refused exactly when a guard fails; otherwise it answers 500 exactly when the selection overflows or the mint transaction fails, and mints the selected items with the recorded ids as the deletion list exactly when the selection finishes and the transaction is submitted; with good draws it mints exactly the drawn documents whenever the submission succeeds; a minted answer carries `MintCount` items to the swap's address, on chain only under pool exhaustion, and the updated record |

## Left out

- The ledger: building, signing, submitting and confirmation polling (Mesh SDK `Transaction`, `keepRelevant`, `signTx`, `submitTx`, `txConfirmation`) are foreign code. They are an oracle that answers each transaction attempt with a hash or an error text.
- Input selection by `keepRelevant` against the wallet's UTxOs is not modelled. The model keeps only the map it is given. Amounts stay integers rather than the strings the source passes.
- The error-text extraction chain `error?.response?.data || error?.message || ...` is not modelled. The oracle hands over the final text.
- The `window.confirm` prompt is replaced by a policy parameter. `formatTokenAmount` and `DECIMALS` are not part of this model: the 1-ADA floor is an integer lovelace parameter.
- Batching.BatchSize: the caller's initial `difference` is assumed non-negative, since a `Fraction` cannot be negative. A negative one would give a negative batch size, and `i += batchSize` would never reach the end of the list. A retry cannot produce one, because the digits it parses carry no sign.
- Floating point: `difference` and `max / curr` are exact rationals. Rounding of the product, and `Number` precision on digit strings longer than 15 digits, are not modelled.
- Logging and the progress `callback` are observational and left out.
- The driver's run is bounded by the number of ledger answers supplied. A run that would ask for more ends as `OutOfReplies`.
- BuildTxs.RunStampsEveryRecord: states that every record ends with some transaction id, not that the id is non-empty. An empty hash from the ledger would leave a record stamped but still unpaid.
- mint.ts plumbing: HTTP status writing, the `Allow` header, and the Firestore reads, update and batch delete are left out. `Math.random` becomes a finite sequence of draws, and running out of draws before an untaken document is hit ends as `OutOfDraws`; the source would keep drawing.
- SwapMint.Handle: besides the overflow of a first draw, the 500 answer covers only a failed mint transaction; a failure of the database update or of the deletes after a successful mint is not modelled.
- SwapMint.AfterMint: each request is modelled as one atomic step on the record it read. The source stores the count with an atomic increment but computes `didMint` from the value read at line 32, so two concurrent requests on one record can both pass the guards and mint past the amount owed; concurrency is not modelled.
- SwapMint.NoDuplicatesStep: requires non-empty document ids, which the document store guarantees. With an empty id, the `find`-based check at line 46 would not see an id already taken.
- The blockchain asset lookup (Blockfrost `assetsById`, `formatHex`) is a predicate on asset names. A lookup that throws counts as "not on chain", as in the source.

=== FILE: arith.dfy ===
/** Facts about products and Euclidean division of natural numbers that the batch
    arithmetic and the count of mint calls both rest on. */
module Arith {

  type Pos = n: nat | n > 0 witness 1

  lemma MulLeq(a: nat, b: nat, n: nat)
    requires a <= b
    ensures a * n <= b * n
  {
  }

  lemma DivLeq(x: nat, den: Pos, n: nat)
    requires x <= den * n
    ensures x / den <= n
  {
  }

  lemma DivShift(x: nat, size: Pos)
    ensures (x + size) / size == x / size + 1
  {
    var q := x / size;
    var r := x % size;
    MulSucc(q, size);
    DivUnique(x + size, size, q + 1, r);
  }

  lemma DivOne(x: nat, size: Pos)
    requires size <= x < 2 * size
    ensures x / size == 1
  {
    DivUnique(x, size, 1, x - size);
  }

  lemma MulSucc(k: int, size: int)
    ensures (k + 1) * size == k * size + size
  {
  }

  /** Division by a positive number has exactly one quotient/remainder pair. */
  lemma DivUnique(a: int, d: Pos, q: int, r: int)
    requires a == q * d + r && 0 <= r < d
    ensures a / d == q
  {
    var q0 := a / d;
    if q0 > q {
      MulLeqInt(q + 1, q0, d);
      MulSucc(q, d);
    } else if q0 < q {
      MulLeqInt(q0 + 1, q, d);
      MulSucc(q0, d);
    }
  }

  lemma MulLeqInt(a: int, b: int, d: nat)
    requires a <= b
    ensures a * d <= b * d
  {
  }
}

=== FILE: assembly.dfy ===
/** What one batch asks of the ledger (src/functions/buildTxs.ts lines 33-60): the
    required-inputs map handed to input selection, and one output per recipient,
    with the 1-ADA floor rule for small lovelace amounts. */
module Assembly {

  import opened Options
  import opened Recipients

  /** The reserved token id of the native currency. */
  const Lovelace := "lovelace"

  /** The answer to the "increase the payout to 1 ADA?" prompt for one record. */
  datatype Decision = RaiseToFloor | Exclude

  /** Who answers the prompt, given the address and the requested lovelace. */
  type FloorPolicy = (string, int) -> Decision

  datatype Output =
    | SendLovelace(address: string, quantity: int)
    | SendAssets(address: string, unit: string, quantity: int)

  /** The transaction a batch asks for: the per-token amounts passed to input selection
      and the outputs in the order they are added. */
  datatype TxRequest = TxRequest(inputs: map<string, int>, outputs: seq<Output>)

  /** `new Map(batch.map(({ tokenId, amount }) => [tokenId, amount]))`: later entries
      overwrite earlier ones with the same key. */
  function RequiredInputs(batch: seq<Recipient>): (m: map<string, int>)
    ensures m.Keys == set r | r in batch :: r.tokenId
    decreases |batch|
  {
    if |batch| == 0 then map[]
    else
      var last := batch[|batch| - 1];
      RequiredInputs(batch[..|batch| - 1])[last.tokenId := last.amount]
  }

  /** The value kept for a token is the amount of the LAST batch record with that token
      (not a sum of the amounts). */
  lemma {:induction false} RequiredInputsLastWins(batch: seq<Recipient>, j: nat)
    requires j < |batch|
    requires forall k :: j < k < |batch| ==> batch[k].tokenId != batch[j].tokenId
    ensures batch[j].tokenId in RequiredInputs(batch)
    ensures RequiredInputs(batch)[batch[j].tokenId] == batch[j].amount
    decreases |batch|
  {
    var n := |batch|;
    var init := batch[..n - 1];
    if j < n - 1 {
      assert init[j] == batch[j];
      forall k | j < k < |init| ensures init[k].tokenId != init[j].tokenId {
        assert init[k] == batch[k];
      }
      RequiredInputsLastWins(init, j);
    }
  }

  /** Two records of the same token in one batch: input selection is asked for the
      second amount only, not for their sum. */
  lemma SameTokenNotSummed(a: Recipient, b: Recipient)
    requires a.tokenId == b.tokenId
    ensures RequiredInputs([a, b]) == map[a.tokenId := b.amount]
  {
    assert [a, b][..1] == [a];
    assert [a][..0] == [];
  }

  /** The output one record contributes: a lovelace amount below the floor becomes the
      floor or nothing, as the policy decides; any other amount is sent as requested. */
  function PayoutOutput(r: Recipient, policy: FloorPolicy, floor: int): (o: Option<Output>)
    ensures o.Some? ==> o.value.address == r.address
    ensures o.None? <==> r.tokenId == Lovelace && r.amount < floor && policy(r.address, r.amount) == Exclude
    ensures o.Some? && o.value.SendLovelace? ==> r.tokenId == Lovelace && o.value.quantity == Max(r.amount, floor)
    ensures r.tokenId == Lovelace && o.Some? ==> o.value == SendLovelace(r.address, Max(r.amount, floor))
    ensures r.tokenId != Lovelace ==> o == Some(SendAssets(r.address, r.tokenId, r.amount))
  {
    if r.tokenId == Lovelace then
      if r.amount < floor then
        match policy(r.address, r.amount)
        case RaiseToFloor => Some(SendLovelace(r.address, floor))
        case Exclude => None
      else Some(SendLovelace(r.address, r.amount))
    else Some(SendAssets(r.address, r.tokenId, r.amount))
  }

  function Max(a: int, b: int): int {
    if a >= b then a else b
  }

  /** A record the policy leaves out. */
  predicate Excluded(r: Recipient, policy: FloorPolicy, floor: int) {
    r.tokenId == Lovelace && r.amount < floor && policy(r.address, r.amount) == Exclude
  }

  /** The records of a batch the policy does not leave out, in batch order. */
  function Kept(batch: seq<Recipient>, policy: FloorPolicy, floor: int): (kept: seq<Recipient>)
    ensures forall r :: r in kept <==> r in batch && !Excluded(r, policy, floor)
    ensures |kept| <= |batch|
    ensures (forall k :: 0 <= k < |batch| ==> !Excluded(batch[k], policy, floor)) ==> kept == batch
    decreases |batch|
  {
    if |batch| == 0 then []
    else
      var rest := Kept(batch[1..], policy, floor);
      assert batch == [batch[0]] + batch[1..];
      if Excluded(batch[0], policy, floor) then rest else [batch[0]] + rest
  }

  /** Keeping works record by record: a single record is kept exactly when the policy
      does not exclude it. */
  lemma KeptOne(r: Recipient, policy: FloorPolicy, floor: int)
    ensures Kept([r], policy, floor) == if Excluded(r, policy, floor) then [] else [r]
  {
  }

  /** Keeping works piecewise over a concatenation, so it keeps the batch order and
      every repeat of a kept record. */
  lemma {:induction false} KeptAppend(a: seq<Recipient>, b: seq<Recipient>, policy: FloorPolicy, floor: int)
    ensures Kept(a + b, policy, floor) == Kept(a, policy, floor) + Kept(b, policy, floor)
    decreases |a|
  {
    if |a| == 0 {
      assert a + b == b;
    } else {
      assert (a + b)[0] == a[0];
      assert (a + b)[1..] == a[1..] + b;
      KeptAppend(a[1..], b, policy, floor);
    }
  }

  /** The outputs of a batch: the output of each kept record, in batch order, so a
      payout that occurs twice is sent twice. */
  function Outputs(batch: seq<Recipient>, policy: FloorPolicy, floor: int): (outs: seq<Output>)
    ensures |outs| == |Kept(batch, policy, floor)| <= |batch|
    ensures forall k :: 0 <= k < |outs| ==> Some(outs[k]) == PayoutOutput(Kept(batch, policy, floor)[k], policy, floor)
    ensures (forall k :: 0 <= k < |batch| ==> !Excluded(batch[k], policy, floor)) ==> |outs| == |batch|
    ensures forall o :: o in outs ==> exists r :: r in batch && PayoutOutput(r, policy, floor) == Some(o)
    decreases |batch|
  {
    if |batch| == 0 then []
    else
      var rest := Outputs(batch[1..], policy, floor);
      var kept := Kept(batch, policy, floor);
      match PayoutOutput(batch[0], policy, floor)
      case Some(o) =>
        assert kept == [batch[0]] + Kept(batch[1..], policy, floor);
        var outs := [o] + rest;
        forall k | 0 <= k < |outs| ensures Some(outs[k]) == PayoutOutput(kept[k], policy, floor) {
          if k > 0 {
            assert outs[k] == rest[k - 1] && kept[k] == Kept(batch[1..], policy, floor)[k - 1];
          }
        }
        outs
      case None => rest
  }

  /** Every record that is not excluded has its output in the transaction. */
  lemma {:induction false} OutputsCover(batch: seq<Recipient>, policy: FloorPolicy, floor: int, r: Recipient)
    requires r in batch && !Excluded(r, policy, floor)
    ensures PayoutOutput(r, policy, floor).Some?
    ensures PayoutOutput(r, policy, floor).value in Outputs(batch, policy, floor)
    decreases |batch|
  {
    if batch[0] != r {
      OutputsCover(batch[1..], policy, floor, r);
    }
  }

  /** An excluded record does not take a repeated payout down with it: both copies of
      `y` are sent. */
  lemma RepeatedPayoutSentTwice(x: Recipient, y: Recipient, policy: FloorPolicy, floor: int)
    requires Excluded(x, policy, floor)
    requires y.tokenId == Lovelace && y.amount == floor
    ensures Outputs([x, y, y], policy, floor) == [SendLovelace(y.address, floor), SendLovelace(y.address, floor)]
  {
    assert [x, y, y][1..] == [y, y] && [y, y][1..] == [y];
  }

  /** No later record of the batch has the token of record `j`. */
  predicate LastOfToken(batch: seq<Recipient>, j: nat)
    requires j < |batch|
  {
    forall k :: j < k < |batch| ==> batch[k].tokenId != batch[j].tokenId
  }

  lemma RequiredInputsAllLastWin(batch: seq<Recipient>)
    ensures forall j :: 0 <= j < |batch| && LastOfToken(batch, j) ==> RequiredInputs(batch)[batch[j].tokenId] == batch[j].amount
  {
    forall j | 0 <= j < |batch| && LastOfToken(batch, j)
      ensures RequiredInputs(batch)[batch[j].tokenId] == batch[j].amount
    {
      RequiredInputsLastWins(batch, j);
    }
  }

  lemma OutputsCoverAll(batch: seq<Recipient>, policy: FloorPolicy, floor: int)
    ensures forall r :: r in batch && !Excluded(r, policy, floor) ==>
              PayoutOutput(r, policy, floor).Some? && PayoutOutput(r, policy, floor).value in Outputs(batch, policy, floor)
  {
    forall r | r in batch && !Excluded(r, policy, floor)
      ensures PayoutOutput(r, policy, floor).Some? && PayoutOutput(r, policy, floor).value in Outputs(batch, policy, floor)
    {
      OutputsCover(batch, policy, floor, r);
    }
  }

  /** The request one batch produces (lines 31-60): input selection is asked for each
      token of the batch at the amount of its last record, and the outputs are those of
      the kept records in order, so every record not left out is paid. */
  function Assemble(batch: seq<Recipient>, policy: FloorPolicy, floor: int): (tx: TxRequest)
    ensures tx.inputs.Keys == set r | r in batch :: r.tokenId
    ensures forall j :: 0 <= j < |batch| && LastOfToken(batch, j) ==> tx.inputs[batch[j].tokenId] == batch[j].amount
    ensures |tx.outputs| == |Kept(batch, policy, floor)|
    ensures forall k :: 0 <= k < |tx.outputs| ==> Some(tx.outputs[k]) == PayoutOutput(Kept(batch, policy, floor)[k], policy, floor)
    ensures forall r :: r in batch && !Excluded(r, policy, floor) ==>
              PayoutOutput(r, policy, floor).Some? && PayoutOutput(r, policy, floor).value in tx.outputs
  {
    RequiredInputsAllLastWin(batch);
    OutputsCoverAll(batch, policy, floor);
    TxRequest(RequiredInputs(batch), Outputs(batch, policy, floor))
  }
}

=== FILE: batching.dfy ===
/** Planning the batches of one pass: the batch size derived from the fraction
    `difference` (src/functions/buildTxs.ts line 22) and the split of the unpaid
    list into contiguous slices (lines 25-27). */
module Batching {

  import opened Options
  import opened Arith

  /** A non-negative rational `num / den`; the model's stand-in for the floating-point
      `difference`. */
  datatype Fraction = Fraction(num: nat, den: Pos)

  /** JavaScript truthiness of `difference`: `undefined` (None) and zero are falsy.
      NaN, which the retry can produce, is also falsy and is modelled as None. */
  predicate Truthy(d: Option<Fraction>) {
    d.Some? && d.value.num != 0
  }

  /** `difference ? Math.floor(difference * n) : n`: the floor of `difference × n`, the
      largest whole number of records not exceeding that product; without a truthy
      fraction it is `n`. */
  function BatchSize(d: Option<Fraction>, n: nat): (size: nat)
    ensures Truthy(d) ==> size * d.value.den <= d.value.num * n < (size + 1) * d.value.den
    ensures !Truthy(d) ==> size == n
  {
    if Truthy(d) then d.value.num * n / d.value.den else n
  }

  /** A fraction of at most one never asks for more records than there are. */
  lemma {:induction false} BatchSizeAtMostCount(d: Option<Fraction>, n: nat)
    requires Truthy(d) ==> d.value.num <= d.value.den
    ensures BatchSize(d, n) <= n
  {
    if Truthy(d) {
      var f := d.value;
      assert f.num * n <= f.den * n by {
        MulLeq(f.num, f.den, n);
      }
      DivLeq(f.num * n, f.den, n);
    }
  }

  /** The records of all batches, in batch order. */
  function Flatten<T>(batches: seq<seq<T>>): seq<T>
    decreases |batches|
  {
    if |batches| == 0 then [] else batches[0] + Flatten(batches[1..])
  }

  function Min(a: int, b: int): int {
    if a <= b then a else b
  }

  /** Cutting `s` into consecutive slices of `size` records, the last one possibly shorter. */
  function Partition<T>(s: seq<T>, size: Pos): (batches: seq<seq<T>>)
    ensures |batches| == 0 <==> |s| == 0
    ensures forall k :: 0 <= k < |batches| ==> 1 <= |batches[k]| <= size
    decreases |s|
  {
    if |s| == 0 then []
    else
      var m := Min(size, |s|);
      [s[..m]] + Partition(s[m..], size)
  }

  /** The batches, laid end to end, are the list again: every record in exactly one
      batch, in the original order. */
  lemma {:induction false} PartitionFlatten<T>(s: seq<T>, size: Pos)
    ensures Flatten(Partition(s, size)) == s
    decreases |s|
  {
    if |s| > 0 {
      var m := Min(size, |s|);
      PartitionUnfold(s, size);
      PartitionFlatten(s[m..], size);
      assert Partition(s, size)[1..] == Partition(s[m..], size);
      assert s[..m] + s[m..] == s;
    }
  }

  /** Every batch but the last holds exactly `size` records. */
  lemma {:induction false} PartitionFull<T>(s: seq<T>, size: Pos)
    ensures forall k :: 0 <= k < |Partition(s, size)| - 1 ==> |Partition(s, size)[k]| == size
    decreases |s|
  {
    if |s| > 0 {
      var m := Min(size, |s|);
      PartitionUnfold(s, size);
      PartitionFull(s[m..], size);
      if |s| < size {
        assert |Partition(s[m..], size)| == 0;
      }
    }
  }

  lemma PartitionUnfold<T>(s: seq<T>, size: Pos)
    requires |s| > 0
    ensures Partition(s, size) == [s[..Min(size, |s|)]] + Partition(s[Min(size, |s|)..], size)
  {
  }

  /** There are `ceil(|s| / size)` batches. */
  lemma {:induction false} PartitionCount<T>(s: seq<T>, size: Pos)
    ensures |Partition(s, size)| == (|s| + size - 1) / size
    decreases |s|
  {
    if |s| > 0 {
      var m := Min(size, |s|);
      PartitionCount(s[m..], size);
      if |s| > size {
        assert (|s| + size - 1) / size == (|s| - size + size - 1) / size + 1 by {
          DivShift(|s| - size + size - 1, size);
        }
      } else {
        assert size <= |s| + size - 1 < 2 * size;
        DivOne(|s| + size - 1, size);
      }
    }
  }

  /** Where batch `k` starts when every batch before it holds `size` records: `k × size`,
      written as repeated addition so that the slice lemmas stay linear. */
  function Offset(k: nat, size: nat): nat {
    if k == 0 then 0 else Offset(k - 1, size) + size
  }

  lemma {:induction false} OffsetIsProduct(k: nat, size: nat)
    ensures Offset(k, size) == k * size
  {
    if k > 0 {
      OffsetIsProduct(k - 1, size);
      MulSucc(k - 1, size);
    }
  }

  /** The source's end index `(i / size + 1) * size` is `i + size` when `i` is a whole
      number of batches. */
  function SliceEnd(i: nat, size: Pos): int {
    (i / size + 1) * size
  }

  lemma SliceEndIsNext(i: nat, size: Pos, b: nat)
    requires i == Offset(b, size)
    ensures SliceEnd(i, size) == i + size
  {
    OffsetIsProduct(b, size);
    DivUnique(i, size, b, 0);
    MulSucc(b, size);
  }

  /** Batch `k` is the slice of `s` from `k × size` up to `(k + 1) × size`, cut off at the end of `s`. */
  lemma {:induction false} PartitionSlice<T>(s: seq<T>, size: Pos, k: nat)
    requires k < |Partition(s, size)|
    ensures Offset(k, size) < |s|
    ensures Partition(s, size)[k] == s[Offset(k, size) .. Min(Offset(k + 1, size), |s|)]
    decreases |s|
  {
    if k == 0 {
      PartitionUnfold(s, size);
      assert Offset(1, size) == size;
    } else {
      PartitionIndex(s, size, k);
      PartitionSlice(s[size..], size, k - 1);
      SliceShift(s, size, k);
    }
  }

  /** Slice `k - 1` of what follows the first `size` records is slice `k` of the whole. */
  lemma SliceShift<T>(s: seq<T>, size: Pos, k: nat)
    requires 0 < k && size < |s| && Offset(k - 1, size) < |s| - size
    ensures Offset(k, size) < |s|
    ensures s[size..][Offset(k - 1, size) .. Min(Offset(k, size), |s| - size)]
            == s[Offset(k, size) .. Min(Offset(k + 1, size), |s|)]
  {
    var lo := Offset(k - 1, size);
    var hi := Min(Offset(k, size), |s| - size);
    assert Offset(k, size) == size + lo && Offset(k + 1, size) == size + Offset(k, size);
    assert size + hi == Min(Offset(k + 1, size), |s|);
    SliceOfSuffix(s, size, lo, hi);
  }

  /** A batch after the first is a batch of what follows the first. */
  lemma PartitionIndex<T>(s: seq<T>, size: Pos, k: nat)
    requires 0 < k < |Partition(s, size)|
    ensures size < |s| && k - 1 < |Partition(s[size..], size)|
    ensures Partition(s, size)[k] == Partition(s[size..], size)[k - 1]
  {
    PartitionUnfold(s, size);
    var m := Min(size, |s|);
    assert |Partition(s[m..], size)| == |Partition(s, size)| - 1 > 0;
    assert |s[m..]| > 0;
  }

  lemma SliceOfSuffix<T>(s: seq<T>, m: nat, lo: nat, hi: nat)
    requires m <= |s| && lo <= hi <= |s| - m
    ensures s[m..][lo..hi] == s[m + lo .. m + hi]
  {
  }

  /** One step of the planning loop: the batches from position `i` on are the slice
      starting at `i` followed by the batches from the end of that slice. */
  lemma PartitionFrom<T>(s: seq<T>, size: Pos, i: nat)
    requires i < |s|
    ensures Partition(s[i..], size) == [s[i .. Min(i + size, |s|)]] + Partition(s[Min(i + size, |s|)..], size)
  {
    PartitionUnfold(s[i..], size);
    assert s[i..][..Min(size, |s| - i)] == s[i .. Min(i + size, |s|)];
    assert s[i..][Min(size, |s| - i)..] == s[Min(i + size, |s|)..];
  }

  /** One turn of the planning loop keeps its invariant: the next slice followed by the
      batches after it completes the batches planned so far. */
  lemma PlanStep<T>(unpaid: seq<T>, size: Pos, batches: seq<seq<T>>, i: nat)
    requires i < |unpaid| && i == Offset(|batches|, size)
    requires batches + Partition(unpaid[i..], size) == Partition(unpaid, size)
    ensures SliceEnd(i, size) == i + size
    ensures (batches + [unpaid[i .. Min(i + size, |unpaid|)]]) + Partition(unpaid[Min(i + size, |unpaid|)..], size)
            == Partition(unpaid, size)
  {
    SliceEndIsNext(i, size, |batches|);
    PartitionFrom(unpaid, size, i);
    var slice := unpaid[i .. Min(i + size, |unpaid|)];
    var later := Partition(unpaid[Min(i + size, |unpaid|)..], size);
    assert (batches + [slice]) + later == batches + ([slice] + later);
  }

  /** The planning loop as the source writes it: `i` steps by `size`, and each batch is
      `slice(i, (i / size + 1) * size)`, which stops at the end of the list. */
  method PlanBatches<T>(unpaid: seq<T>, size: Pos) returns (batches: seq<seq<T>>)
    ensures batches == Partition(unpaid, size)
  {
    batches := [];
    var i: nat := 0;
    while i < |unpaid|
      invariant i == Offset(|batches|, size)
      invariant batches + Partition(unpaid[Min(i, |unpaid|)..], size) == Partition(unpaid, size)
    {
      assert Min(i, |unpaid|) == i;
      PlanStep(unpaid, size, batches, i);
      var end := SliceEnd(i, size);
      var slice := unpaid[i .. Min(end, |unpaid|)];
      assert Offset(|batches| + 1, size) == i + size;
      batches := batches + [slice];
      i := i + size;
    }
  }
}

=== FILE: build_txs.dfy ===
/** The payout driver `buildTxs` (src/functions/buildTxs.ts lines 13-113): plan the
    batches of the unpaid records, ask the ledger for one transaction per batch in
    order, stamp each confirmed batch, and on a "Maximum transaction size" failure
    start over with a smaller fraction. */
module BuildTxs {

  import opened Options
  import opened Arith
  import opened Batching
  import opened Recipients
  import opened Assembly
  import opened SizeError
  import opened Text

  /** What the ledger makes of one transaction: building, signing, submitting and
      waiting for confirmation either all succeed with the transaction hash, or one of
      them fails with the error text the source extracts. */
  datatype Reply = Confirmed(txHash: string) | Failed(message: string)

  /** The ledger as the run sees it: the k-th transaction attempt of the run is
      answered by `ledger[k]` applied to the transaction that attempt asks for. */
  type Ledger = seq<TxRequest -> Reply>

  datatype Outcome =
    | Paid(recipients: seq<Recipient>)  // the list returned to the caller
    | Thrown(message: string)           // the error rethrown to the caller
    | Hangs                             // batch size 0 with records left: planning never ends
    | OutOfReplies                      // the ledger sequence ended before the run did

  /** One call of `buildTxs(wallet, rs, callback, d)`. */
  function Run(rs: seq<Recipient>, d: Option<Fraction>, ledger: Ledger, policy: FloorPolicy, floor: int): (o: Outcome)
    ensures o.Thrown? ==> !IsSizeError(o.message)
    ensures |ledger| == 0 ==> (o.Paid? <==> Unpaid(rs) == [])
    decreases |ledger|, 1
  {
    var unpaid := Unpaid(rs);
    var size := BatchSize(d, |unpaid|);
    if size == 0 then
      if |unpaid| == 0 then Paid(rs) else Hangs
    else
      RunBatches(rs, Partition(unpaid, size), d, ledger, policy, floor)
  }

  /** The `for await` loop over the planned batches (lines 30-88) and its `catch` (lines 91-111). */
  function RunBatches(rs: seq<Recipient>, batches: seq<seq<Recipient>>, d: Option<Fraction>,
                      ledger: Ledger, policy: FloorPolicy, floor: int): (o: Outcome)
    ensures o.Thrown? ==> !IsSizeError(o.message)
    decreases |ledger|, 0
  {
    if |batches| == 0 then Paid(rs)
    else if |ledger| == 0 then OutOfReplies
    else
      match ledger[0](Assemble(batches[0], policy, floor))
      case Confirmed(h) => RunBatches(Mark(rs, batches[0], h), batches[1..], d, ledger[1..], policy, floor)
      case Failed(msg) =>
        if IsSizeError(msg) then Run(rs, Corrected(d, ParseSizeReport(msg)), ledger[1..], policy, floor)
        else Thrown(msg)
  }

  /** The records are only ever annotated: the returned list has the same length and the
      same (address, tokenId, amount) at every position. */
  lemma {:induction false} RunKeepsRequests(rs: seq<Recipient>, d: Option<Fraction>, ledger: Ledger, policy: FloorPolicy, floor: int)
    ensures Run(rs, d, ledger, policy, floor).Paid? ==>
              var out := Run(rs, d, ledger, policy, floor).recipients;
              |out| == |rs| && forall i :: 0 <= i < |rs| ==> SameTriple(out[i], rs[i])
    decreases |ledger|, 1
  {
    var unpaid := Unpaid(rs);
    var size := BatchSize(d, |unpaid|);
    if size > 0 {
      RunBatchesKeepsRequests(rs, Partition(unpaid, size), d, ledger, policy, floor);
    }
  }

  lemma {:induction false} RunBatchesKeepsRequests(rs: seq<Recipient>, batches: seq<seq<Recipient>>, d: Option<Fraction>,
                                                   ledger: Ledger, policy: FloorPolicy, floor: int)
    ensures RunBatches(rs, batches, d, ledger, policy, floor).Paid? ==>
              var out := RunBatches(rs, batches, d, ledger, policy, floor).recipients;
              |out| == |rs| && forall i :: 0 <= i < |rs| ==> SameTriple(out[i], rs[i])
    decreases |ledger|, 0
  {
    if |batches| > 0 && |ledger| > 0 {
      match ledger[0](Assemble(batches[0], policy, floor))
      case Confirmed(h) =>
        RunBatchesKeepsRequests(Mark(rs, batches[0], h), batches[1..], d, ledger[1..], policy, floor);
      case Failed(msg) =>
        if IsSizeError(msg) {
          RunKeepsRequests(rs, Corrected(d, ParseSizeReport(msg)), ledger[1..], policy, floor);
        }
    }
  }

  /** A returned list in which every record carries a transaction id. */
  predicate AllStamped(o: Outcome) {
    o.Paid? ==> forall i :: 0 <= i < |o.recipients| ==> o.recipients[i].transactionId.Some?
  }

  /** When the run returns, every record carries a transaction id: the ones already paid
      keep theirs, and every other record was in a confirmed batch. */
  lemma {:induction false} RunStampsEveryRecord(rs: seq<Recipient>, d: Option<Fraction>, ledger: Ledger, policy: FloorPolicy, floor: int)
    ensures AllStamped(Run(rs, d, ledger, policy, floor))
    decreases |ledger|, 1
  {
    var unpaid := Unpaid(rs);
    var size := BatchSize(d, |unpaid|);
    if size > 0 {
      var batches := Partition(unpaid, size);
      PartitionFlatten(unpaid, size);
      forall i | 0 <= i < |rs| && rs[i].transactionId.None?
        ensures InBatch(Flatten(batches), rs[i])
      {
        assert rs[i] in rs && !IsPaid(rs[i]);
        assert rs[i] in Flatten(batches);
        assert SameTriple(rs[i], rs[i]);
      }
      RunBatchesStampsEveryRecord(rs, batches, d, ledger, policy, floor);
    } else if |unpaid| == 0 {
      forall i | 0 <= i < |rs| ensures rs[i].transactionId.Some? {
        assert rs[i] in rs && rs[i] !in unpaid;
      }
    }
  }

  lemma {:induction false} RunBatchesStampsEveryRecord(rs: seq<Recipient>, batches: seq<seq<Recipient>>, d: Option<Fraction>,
                                                       ledger: Ledger, policy: FloorPolicy, floor: int)
    requires forall i :: 0 <= i < |rs| && rs[i].transactionId.None? ==> InBatch(Flatten(batches), rs[i])
    ensures AllStamped(RunBatches(rs, batches, d, ledger, policy, floor))
    decreases |ledger|, 0
  {
    if |batches| == 0 {
      forall i | 0 <= i < |rs| ensures rs[i].transactionId.Some? {
        assert Flatten(batches) == [];
        assert !InBatch(Flatten(batches), rs[i]);
      }
    } else if |ledger| > 0 {
      match ledger[0](Assemble(batches[0], policy, floor))
      case Confirmed(h) =>
        var rs' := Mark(rs, batches[0], h);
        assert Flatten(batches) == batches[0] + Flatten(batches[1..]);
        forall i | 0 <= i < |rs'| && rs'[i].transactionId.None?
          ensures InBatch(Flatten(batches[1..]), rs'[i])
        {
          assert !InBatch(batches[0], rs[i]);
          assert rs'[i] == rs[i];
          var b :| b in Flatten(batches) && SameTriple(b, rs[i]);
          assert b !in batches[0];
          assert b in Flatten(batches[1..]);
        }
        RunBatchesStampsEveryRecord(rs', batches[1..], d, ledger[1..], policy, floor);
        assert RunBatches(rs, batches, d, ledger, policy, floor) == RunBatches(rs', batches[1..], d, ledger[1..], policy, floor);
      case Failed(msg) =>
        if IsSizeError(msg) {
          RunStampsEveryRecord(rs, Corrected(d, ParseSizeReport(msg)), ledger[1..], policy, floor);
        }
    }
  }

  /** A returned list of the same length in which every record that was already paid
      comes back exactly as it was. */
  predicate KeepsPaid(rs: seq<Recipient>, o: Outcome) {
    o.Paid? ==> |o.recipients| == |rs| && forall i :: 0 <= i < |rs| && IsPaid(rs[i]) ==> o.recipients[i] == rs[i]
  }

  /** When no two records ask for the same payment, a record that was paid before the
      run keeps its transaction id: it is never batched and never re-stamped. */
  lemma {:induction false} RunKeepsPaidRecords(rs: seq<Recipient>, d: Option<Fraction>, ledger: Ledger, policy: FloorPolicy, floor: int)
    requires DistinctTriples(rs)
    ensures KeepsPaid(rs, Run(rs, d, ledger, policy, floor))
    decreases |ledger|, 1
  {
    var unpaid := Unpaid(rs);
    var size := BatchSize(d, |unpaid|);
    if size > 0 {
      var batches := Partition(unpaid, size);
      PartitionFlatten(unpaid, size);
      UnpaidDistinct(rs);
      forall i | 0 <= i < |rs| && IsPaid(rs[i]) ensures !InBatch(Flatten(batches), rs[i]) {
        forall b | b in unpaid ensures !SameTriple(b, rs[i]) {
          var j :| 0 <= j < |rs| && rs[j] == b;
          assert j != i;
        }
      }
      RunBatchesKeepsPaidRecords(rs, batches, d, ledger, policy, floor);
    }
  }

  lemma {:induction false} RunBatchesKeepsPaidRecords(rs: seq<Recipient>, batches: seq<seq<Recipient>>, d: Option<Fraction>,
                                                      ledger: Ledger, policy: FloorPolicy, floor: int)
    requires DistinctTriples(rs)
    requires DistinctTriples(Flatten(batches))
    requires forall i :: 0 <= i < |rs| && IsPaid(rs[i]) ==> !InBatch(Flatten(batches), rs[i])
    ensures KeepsPaid(rs, RunBatches(rs, batches, d, ledger, policy, floor))
    decreases |ledger|, 0
  {
    if |batches| > 0 && |ledger| > 0 {
      match ledger[0](Assemble(batches[0], policy, floor))
      case Confirmed(h) =>
        var rs' := Mark(rs, batches[0], h);
        StampKeepsPaid(rs, batches, h);
        RunBatchesKeepsPaidRecords(rs', batches[1..], d, ledger[1..], policy, floor);
        assert RunBatches(rs, batches, d, ledger, policy, floor) == RunBatches(rs', batches[1..], d, ledger[1..], policy, floor);
      case Failed(msg) =>
        if IsSizeError(msg) {
          RunKeepsPaidRecords(rs, Corrected(d, ParseSizeReport(msg)), ledger[1..], policy, floor);
        }
    }
  }

  /** Stamping the first batch keeps the conditions for the batches after it, and leaves
      the records paid before untouched. */
  lemma StampKeepsPaid(rs: seq<Recipient>, batches: seq<seq<Recipient>>, h: string)
    requires |batches| > 0
    requires DistinctTriples(rs)
    requires DistinctTriples(Flatten(batches))
    requires forall i :: 0 <= i < |rs| && IsPaid(rs[i]) ==> !InBatch(Flatten(batches), rs[i])
    ensures var rs' := Mark(rs, batches[0], h);
            && DistinctTriples(rs') && DistinctTriples(Flatten(batches[1..]))
            && (forall i :: 0 <= i < |rs'| && IsPaid(rs'[i]) ==> !InBatch(Flatten(batches[1..]), rs'[i]))
            && (forall i :: 0 <= i < |rs| && IsPaid(rs[i]) ==> rs'[i] == rs[i])
  {
    var head := batches[0];
    var tail := Flatten(batches[1..]);
    var rs' := Mark(rs, head, h);
    assert Flatten(batches) == head + tail;
    DistinctSuffix(head, tail);
    assert DistinctTriples(rs');
    forall i | 0 <= i < |rs'| && IsPaid(rs'[i]) ensures !InBatch(tail, rs'[i]) {
      if InBatch(head, rs[i]) {
        var b0 :| b0 in head && SameTriple(b0, rs[i]);
        var p :| 0 <= p < |head| && head[p] == b0;
        forall b | b in tail ensures !SameTriple(b, rs'[i]) {
          var q :| 0 <= q < |tail| && tail[q] == b;
          assert (head + tail)[p] == b0 && (head + tail)[|head| + q] == b;
        }
      } else {
        assert rs'[i] == rs[i];
        forall b | b in tail ensures !SameTriple(b, rs'[i]) {
          assert b in Flatten(batches);
        }
      }
    }
    forall i | 0 <= i < |rs| && IsPaid(rs[i]) ensures rs'[i] == rs[i] {
      assert !InBatch(Flatten(batches), rs[i]);
      forall b | b in head ensures !SameTriple(b, rs[i]) {
        assert b in Flatten(batches);
      }
    }
  }

  /** A ledger whose k-th attempt gets the same answer whatever it asks for. */
  ghost predicate AnswersAll(ledger: Ledger, k: nat, reply: Reply) {
    k < |ledger| && forall q :: ledger[k](q) == reply
  }

  /** The only recovery: when the first attempt of a pass fails with the ledger's size
      message, the pass is abandoned and the whole run starts again on the same list with
      the fraction scaled by limit / found and the remaining ledger answers. */
  lemma RetryAfterSizeError(rs: seq<Recipient>, d: Option<Fraction>, ledger: Ledger, policy: FloorPolicy, floor: int,
                            prefix: string, max: Pos, curr: Pos, suffix: string)
    requires BatchSize(d, |Unpaid(rs)|) > 0
    requires AnswersAll(ledger, 0, Failed(SizeMessage(prefix, max, curr, suffix)))
    requires DigitFree(prefix) && DigitFree(suffix) && ' ' !in suffix
    ensures Run(rs, d, ledger, policy, floor) == Run(rs, Corrected(d, Some(SizeReport(max, curr))), ledger[1..], policy, floor)
  {
    var msg := SizeMessage(prefix, max, curr, suffix);
    ParseSizeMessage(prefix, max, curr, suffix);
    var batches := RunPlans(rs, d, ledger, policy, floor);
    FirstBatchFails(rs, batches, d, ledger, policy, floor, msg);
  }

  /** A pass with a positive batch size hands the planned batches to the loop. */
  lemma RunPlans(rs: seq<Recipient>, d: Option<Fraction>, ledger: Ledger, policy: FloorPolicy, floor: int)
    returns (batches: seq<seq<Recipient>>)
    requires BatchSize(d, |Unpaid(rs)|) > 0
    ensures batches == Partition(Unpaid(rs), BatchSize(d, |Unpaid(rs)|)) && |batches| > 0
    ensures Run(rs, d, ledger, policy, floor) == RunBatches(rs, batches, d, ledger, policy, floor)
  {
    batches := Partition(Unpaid(rs), BatchSize(d, |Unpaid(rs)|));
  }

  /** The loop's answer when the first remaining batch is refused. */
  lemma FirstBatchFails(rs: seq<Recipient>, batches: seq<seq<Recipient>>, d: Option<Fraction>,
                        ledger: Ledger, policy: FloorPolicy, floor: int, msg: string)
    requires |batches| > 0
    requires AnswersAll(ledger, 0, Failed(msg))
    ensures IsSizeError(msg) ==>
              RunBatches(rs, batches, d, ledger, policy, floor) == Run(rs, Corrected(d, ParseSizeReport(msg)), ledger[1..], policy, floor)
    ensures !IsSizeError(msg) ==> RunBatches(rs, batches, d, ledger, policy, floor) == Thrown(msg)
  {
    assert ledger[0](Assemble(batches[0], policy, floor)) == Failed(msg);
  }

  /** A failure of the second batch, after the first was confirmed under `h`: a size
      error restarts the run on the list as stamped for the first batch, while any other
      failure ends the run with the error alone, so those stamps are not returned. */
  lemma FailureAfterConfirmedBatch(rs: seq<Recipient>, d: Option<Fraction>, ledger: Ledger, policy: FloorPolicy, floor: int,
                                   h: string, msg: string)
    requires BatchSize(d, |Unpaid(rs)|) > 0 && |Partition(Unpaid(rs), BatchSize(d, |Unpaid(rs)|))| >= 2
    requires AnswersAll(ledger, 0, Confirmed(h)) && AnswersAll(ledger, 1, Failed(msg))
    ensures IsSizeError(msg) ==>
              Run(rs, d, ledger, policy, floor)
              == Run(Mark(rs, Partition(Unpaid(rs), BatchSize(d, |Unpaid(rs)|))[0], h), Corrected(d, ParseSizeReport(msg)), ledger[2..], policy, floor)
    ensures !IsSizeError(msg) ==> Run(rs, d, ledger, policy, floor) == Thrown(msg)
  {
    var batches := RunPlans(rs, d, ledger, policy, floor);
    var rs' := FirstBatchConfirms(rs, batches, d, ledger, policy, floor, h);
    assert AnswersAll(ledger[1..], 0, Failed(msg));
    FirstBatchFails(rs', batches[1..], d, ledger[1..], policy, floor, msg);
    assert ledger[1..][1..] == ledger[2..];
  }

  /** The loop's step when the first remaining batch is confirmed. */
  lemma FirstBatchConfirms(rs: seq<Recipient>, batches: seq<seq<Recipient>>, d: Option<Fraction>,
                           ledger: Ledger, policy: FloorPolicy, floor: int, h: string)
    returns (rs': seq<Recipient>)
    requires |batches| > 0
    requires AnswersAll(ledger, 0, Confirmed(h))
    ensures rs' == Mark(rs, batches[0], h)
    ensures RunBatches(rs, batches, d, ledger, policy, floor) == RunBatches(rs', batches[1..], d, ledger[1..], policy, floor)
  {
    rs' := Mark(rs, batches[0], h);
    assert ledger[0](Assemble(batches[0], policy, floor)) == Confirmed(h);
  }

  /** With nothing unpaid no batch is planned, the ledger is not asked, and the list
      comes back as it was. */
  lemma NothingUnpaid(rs: seq<Recipient>, d: Option<Fraction>, ledger: Ledger, policy: FloorPolicy, floor: int)
    requires forall i :: 0 <= i < |rs| ==> IsPaid(rs[i])
    ensures Run(rs, d, ledger, policy, floor) == Paid(rs)
  {
    UnpaidOfPaid(rs);
  }

  /** With an absent or zero fraction the run is one transaction for every unpaid record;
      if the ledger confirms it, each of them is stamped with that transaction's hash. */
  lemma OneBatchWithoutFraction(rs: seq<Recipient>, d: Option<Fraction>, ledger: Ledger, policy: FloorPolicy, floor: int, h: string)
    requires !Truthy(d) && |Unpaid(rs)| > 0
    requires AnswersAll(ledger, 0, Confirmed(h))
    ensures Run(rs, d, ledger, policy, floor).Paid?
    ensures var out := Run(rs, d, ledger, policy, floor).recipients;
            |out| == |rs| && forall i :: 0 <= i < |rs| && !IsPaid(rs[i]) ==> out[i].transactionId == Some(h)
  {
    var unpaid := Unpaid(rs);
    var n := |unpaid|;
    PartitionCount(unpaid, n);
    DivOne(n + n - 1, n);
    var batches := Partition(unpaid, n);
    assert |batches| == 1;
    PartitionFlatten(unpaid, n);
    assert batches[0] == unpaid;
    assert ledger[0](Assemble(batches[0], policy, floor)) == Confirmed(h);
    assert Run(rs, d, ledger, policy, floor) == RunBatches(Mark(rs, unpaid, h), batches[1..], d, ledger[1..], policy, floor);
    forall i | 0 <= i < |rs| && !IsPaid(rs[i]) ensures InBatch(unpaid, rs[i]) {
      assert rs[i] in unpaid && SameTriple(rs[i], rs[i]);
    }
  }

  /** Ten unpaid records and the older message (limit 16384, found 21861): the retry
      scales the batch to floor(10 × 16384 / 21861) = 7 records, and plans batches of 7 and 3. */
  lemma TenRecordsRetryPlan(unpaid: seq<Recipient>)
    requires |unpaid| == 10
    ensures BatchSize(Corrected(None, Some(SizeReport(16384, 21861))), 10) == 7
    ensures var batches := Partition(unpaid, 7);
            |batches| == 2 && |batches[0]| == 7 && |batches[1]| == 3
  {
    var batches := Partition(unpaid, 7);
    PartitionCount(unpaid, 7);
    PartitionFlatten(unpaid, 7);
    PartitionFull(unpaid, 7);
    assert Flatten(batches) == batches[0] + batches[1];
  }

  /** A single record whose transaction alone is over the limit: the retry computes a
      batch size of 0 and the planning loop never ends. */
  lemma OversizeSingleRecordHangs(rs: seq<Recipient>, ledger: Ledger, policy: FloorPolicy, floor: int,
                                  prefix: string, max: Pos, curr: Pos, suffix: string)
    requires |Unpaid(rs)| == 1
    requires max < curr
    requires AnswersAll(ledger, 0, Failed(SizeMessage(prefix, max, curr, suffix)))
    requires DigitFree(prefix) && DigitFree(suffix) && ' ' !in suffix
    ensures Run(rs, None, ledger, policy, floor) == Hangs
  {
    RetryAfterSizeError(rs, None, ledger, policy, floor, prefix, max, curr, suffix);
    OversizeRetryHangs(rs, ledger[1..], policy, floor, max, curr);
  }

  lemma OversizeRetryHangs(rs: seq<Recipient>, ledger: Ledger, policy: FloorPolicy, floor: int, max: Pos, curr: Pos)
    requires |Unpaid(rs)| == 1
    requires max < curr
    ensures Run(rs, Corrected(None, Some(SizeReport(max, curr))), ledger, policy, floor) == Hangs
  {
    var d' := Corrected(None, Some(SizeReport(max, curr)));
    assert d' == Some(Fraction(max, curr));
    assert BatchSize(d', 1) == 0 by {
      DivUnique(max * 1, curr, 0, max);
    }
    RunHangs(rs, d', ledger, policy, floor);
  }

  /** A pass whose batch size rounds down to zero while records are still unpaid never
      leaves the planning loop. */
  lemma RunHangs(rs: seq<Recipient>, d: Option<Fraction>, ledger: Ledger, policy: FloorPolicy, floor: int)
    requires |Unpaid(rs)| > 0 && BatchSize(d, |Unpaid(rs)|) == 0
    ensures Run(rs, d, ledger, policy, floor) == Hangs
  {
  }

  /** Stamping matches by payment, not by record: a record already paid under `t` that
      asks for the same payment as an unpaid one is stamped again with the new hash, so
      the earlier transaction id is lost. */
  lemma PaidTwinIsRestamped(rs: seq<Recipient>, ledger: Ledger, policy: FloorPolicy, floor: int,
                            h: string, i: nat, j: nat)
    requires i < |rs| && j < |rs|
    requires IsPaid(rs[i]) && !IsPaid(rs[j]) && SameTriple(rs[i], rs[j])
    requires AnswersAll(ledger, 0, Confirmed(h))
    ensures Run(rs, None, ledger, policy, floor).Paid? && |Run(rs, None, ledger, policy, floor).recipients| == |rs|
    ensures Run(rs, None, ledger, policy, floor).recipients[i].transactionId == Some(h)
  {
    var unpaid := Unpaid(rs);
    assert rs[j] in unpaid;
    OneBatchWithoutFraction(rs, None, ledger, policy, floor, h);
    var n := |unpaid|;
    PartitionCount(unpaid, n);
    DivOne(n + n - 1, n);
    PartitionFlatten(unpaid, n);
    assert Partition(unpaid, n)[0] == unpaid;
    assert InBatch(unpaid, rs[i]) by {
      assert SameTriple(rs[j], rs[i]);
    }
    assert Run(rs, None, ledger, policy, floor) == RunBatches(Mark(rs, unpaid, h), [], None, ledger[1..], policy, floor);
  }

  /** A record the floor policy leaves out contributes no output, yet once its batch is
      confirmed it is stamped with that transaction's hash like the others. */
  lemma ExcludedRecordIsStamped(rs: seq<Recipient>, ledger: Ledger, policy: FloorPolicy, floor: int, h: string, i: nat)
    requires i < |rs| && !IsPaid(rs[i]) && Excluded(rs[i], policy, floor)
    requires AnswersAll(ledger, 0, Confirmed(h))
    ensures PayoutOutput(rs[i], policy, floor).None?
    ensures Run(rs, None, ledger, policy, floor).Paid? && |Run(rs, None, ledger, policy, floor).recipients| == |rs|
    ensures Run(rs, None, ledger, policy, floor).recipients[i].transactionId == Some(h)
  {
    assert rs[i] in Unpaid(rs);
    OneBatchWithoutFraction(rs, None, ledger, policy, floor, h);
  }
}

=== FILE: mint.dfy ===
/** The bookkeeping of the mint endpoint (src/pages/api/turtle/mint.ts): which requests
    are refused and in what order, how many tokens one call mints, which asset documents
    it draws, and how the swap record is updated afterwards. */
module SwapMint {

  import opened Options
  import opened Arith

  /** At most this many tokens are minted per call (line 74). */
  const MaxPerCall: Pos := 10

  /** A swap document: the burn has been recorded, `amountToMint` tokens are owed to
      `address`, `amountMinted` of them have been minted so far. */
  datatype SwapRecord = SwapRecord(address: string, amountToMint: int, amountMinted: Option<int>,
                                   didBurn: bool, didMint: bool)

  /** `amountMinted || 0`: a missing count reads as zero. */
  function MintedSoFar(s: SwapRecord): int {
    s.amountMinted.GetOr(0)
  }

  /** `amountToMint - (amountMinted || 0)` (line 33). */
  function Remaining(s: SwapRecord): (r: int)
    ensures s.amountMinted.None? ==> r == s.amountToMint
    ensures s.amountMinted.Some? ==> r == s.amountToMint - s.amountMinted.value
  {
    s.amountToMint - MintedSoFar(s)
  }

  /** A refused request: the HTTP status and the body text. */
  datatype Refusal = Refusal(status: nat, message: string)

  const NotAllowed := Refusal(405, "")
  const InvalidDoc := Refusal(400, "Doc ID is invalid")
  const NotBurned := Refusal(400, "User did not complete burn TX")
  const AlreadyMinted := Refusal(400, "Already completed mint for this record")
  const NothingToMint := Refusal(400, "User does not have mint amount")

  /** The checks a request goes through before anything is minted (lines 20-37 and
      130-132), in the order the handler makes them; None means the request proceeds. */
  function Guard(verb: string, swap: Option<SwapRecord>): (g: Option<Refusal>)
    ensures g.None? <==> verb == "POST" && swap.Some? && swap.value.didBurn && !swap.value.didMint
                         && swap.value.amountToMint != 0 && Remaining(swap.value) != 0
    ensures verb != "POST" ==> g == Some(NotAllowed)
    ensures g.Some? && g.value.status == 405 <==> verb != "POST"
  {
    if verb != "POST" then Some(NotAllowed)
    else if swap.None? then Some(InvalidDoc)
    else
      var s := swap.value;
      if !s.didBurn then Some(NotBurned)
      else if s.didMint then Some(AlreadyMinted)
      else if s.amountToMint == 0 || Remaining(s) == 0 then Some(NothingToMint)
      else None
  }

  /** The checks are made in order and the first one that fails answers: a record that
      does not exist is refused before anything is read from it, one neither burned nor
      owed anything is refused for the burn, and one already completed is refused for that
      even when its counts would also refuse it. */
  lemma GuardOrder(s: SwapRecord)
    ensures !s.didBurn ==> Guard("POST", Some(s)) == Some(NotBurned)
    ensures s.didBurn && s.didMint ==> Guard("POST", Some(s)) == Some(AlreadyMinted)
    ensures Guard("POST", None) == Some(InvalidDoc)
    ensures s.didBurn && !s.didMint && (s.amountToMint == 0 || Remaining(s) == 0) ==> Guard("POST", Some(s)) == Some(NothingToMint)
  {
  }

  /** The number of iterations of `for (i = 0; i < Math.min(amountRemaining, 10); i++)`:
      no more than ten and no more than is owed, and none at all when the record has
      been minted past its amount. */
  function MintCount(s: SwapRecord): (n: nat)
    ensures n <= MaxPerCall
    ensures Remaining(s) <= 0 <==> n == 0
    ensures Remaining(s) > 0 ==> n <= Remaining(s) && (n == Remaining(s) || n == MaxPerCall)
  {
    if Remaining(s) <= 0 then 0
    else if Remaining(s) < MaxPerCall then Remaining(s)
    else MaxPerCall
  }

  /** The update after the mint transaction went through (lines 113-116): the stored count
      grows by the number of items, and the record is complete when the count reached
      before the call plus that number equals the amount owed. */
  function AfterMint(s: SwapRecord, n: nat): (t: SwapRecord)
    ensures MintedSoFar(t) == MintedSoFar(s) + n
    ensures t.didMint <==> MintedSoFar(t) == s.amountToMint
    ensures t.address == s.address && t.amountToMint == s.amountToMint && t.didBurn == s.didBurn
  {
    s.(amountMinted := Some(MintedSoFar(s) + n), didMint := MintedSoFar(s) + n == s.amountToMint)
  }

  /** One accepted call never mints past the amount owed, and it completes the record
      exactly when it mints all that remained. */
  lemma OneCallBounded(s: SwapRecord)
    requires Guard("POST", Some(s)).None?
    requires MintedSoFar(s) <= s.amountToMint
    ensures MintedSoFar(AfterMint(s, MintCount(s))) <= s.amountToMint
    ensures AfterMint(s, MintCount(s)).didMint <==> Remaining(s) <= MaxPerCall
  {
  }

  /** A record already minted past its amount is never refused and never completes: each
      call mints nothing and leaves the count where it was. */
  lemma OvermintedIsStuck(s: SwapRecord)
    requires s.didBurn && !s.didMint && s.amountToMint != 0
    requires MintedSoFar(s) > s.amountToMint
    ensures Guard("POST", Some(s)).None?
    ensures MintCount(s) == 0
    ensures AfterMint(s, MintCount(s)) == s.(amountMinted := Some(MintedSoFar(s)), didMint := false)
    ensures Guard("POST", Some(AfterMint(s, MintCount(s)))).None?
  {
  }

  /** `k` successive accepted calls on the same record, each minting its full count. */
  function Calls(s: SwapRecord, k: nat): SwapRecord
    decreases k
  {
    if k == 0 then s else Calls(AfterMint(s, MintCount(s)), k - 1)
  }

  /** How many calls a record needs: `ceil(remaining / 10)`. */
  function CallsNeeded(s: SwapRecord): int {
    (Remaining(s) + MaxPerCall - 1) / MaxPerCall
  }

  /** A burned record owing a positive amount is paid off by exactly `ceil(remaining / 10)`
      calls, each of which the guards let through; after them the count equals the amount,
      the record is marked complete, and the next call is refused as already completed. */
  lemma {:induction false} CallsComplete(s: SwapRecord)
    requires s.didBurn && !s.didMint
    requires 0 <= MintedSoFar(s) < s.amountToMint
    ensures CallsNeeded(s) >= 1
    ensures forall j :: 0 <= j < CallsNeeded(s) ==> Guard("POST", Some(Calls(s, j))).None?
    ensures MintedSoFar(Calls(s, CallsNeeded(s))) == s.amountToMint
    ensures Calls(s, CallsNeeded(s)).didMint
    ensures Guard("POST", Some(Calls(s, CallsNeeded(s)))) == Some(AlreadyMinted)
    decreases Remaining(s)
  {
    var r := Remaining(s);
    var t := AfterMint(s, MintCount(s));
    if r <= MaxPerCall {
      assert CallsNeeded(s) == 1 by {
        DivOne(r + MaxPerCall - 1, MaxPerCall);
      }
      assert Calls(s, 1) == t;
      forall j | 0 <= j < 1 ensures Guard("POST", Some(Calls(s, j))).None? {
        assert Calls(s, j) == s;
      }
    } else {
      assert Remaining(t) == r - MaxPerCall;
      assert CallsNeeded(s) == CallsNeeded(t) + 1 by {
        DivShift(r - MaxPerCall + MaxPerCall - 1, MaxPerCall);
      }
      CallsComplete(t);
      assert Calls(s, CallsNeeded(s)) == Calls(t, CallsNeeded(t));
      forall j | 0 <= j < CallsNeeded(s) ensures Guard("POST", Some(Calls(s, j))).None? {
        if j > 0 {
          assert Calls(s, j) == Calls(t, j - 1);
        }
      }
    }
  }

  /** An asset document of the collection to draw from. */
  datatype AssetDoc = AssetDoc(id: string, assetName: string)

  /** What one mint asks for: the drawn asset, sent to the swap's address (lines 77-80). */
  datatype MintItem = MintItem(assetName: string, recipient: string)

  /** `!!docsToDelete.find((str) => str === id)`: `find` returns the matching id itself,
      so an empty id counts as not found even when it was taken. */
  predicate AlreadyTaken(taken: seq<string>, id: string) {
    id in taken && id != ""
  }

  /** Every draw falls past the end of the pool or on a document already taken. */
  predicate AllMiss(pool: seq<AssetDoc>, taken: seq<string>, draws: seq<nat>) {
    forall k :: 0 <= k < |draws| ==> draws[k] >= |pool| || AlreadyTaken(taken, pool[draws[k]].id)
  }

  /** `getRandomDoc` (lines 41-51) over a finite supply of draws: each draw is the index
      `floor(random × (n + 1))`, which may fall one past the end; a draw past the end or
      on a document already taken is drawn again. None when the draws run out first. */
  function RandomDoc(pool: seq<AssetDoc>, taken: seq<string>, draws: seq<nat>): (r: Option<(AssetDoc, seq<nat>)>)
    ensures r.Some? ==> r.value.0 in pool && !AlreadyTaken(taken, r.value.0.id)
    ensures r.Some? ==> |r.value.1| < |draws| && r.value.1 == draws[|draws| - |r.value.1|..]
    ensures r.None? <==> AllMiss(pool, taken, draws)
    decreases |draws|
  {
    if |draws| == 0 then None
    else if draws[0] >= |pool| || AlreadyTaken(taken, pool[draws[0]].id) then
      var r := RandomDoc(pool, taken, draws[1..]);
      assert forall k :: 1 <= k < |draws| ==> draws[k] == draws[1..][k - 1];
      r
    else Some((pool[draws[0]], draws[1..]))
  }

  /** Every pool document has been recorded as taken. From here on `getRandomDoc` draws
      again forever, until the call stack overflows with a `RangeError`. */
  predicate Exhausted(pool: seq<AssetDoc>, taken: seq<string>) {
    forall k :: 0 <= k < |pool| ==> TakenAt(pool, taken, k)
  }

  /** The document at index `k` has been recorded as taken. */
  predicate TakenAt(pool: seq<AssetDoc>, taken: seq<string>, k: nat)
    requires k < |pool|
  {
    AlreadyTaken(taken, pool[k].id)
  }

  /** How drawing ends: with a value; with the stack overflow of a `getRandomDoc` call on
      a pool that the ids `taken` exhaust; or when the supplied draws run out. */
  datatype Drawn<T> = Drawn(value: T) | Overflow(taken: seq<string>) | NoDraws

  /** `getNonMintedDoc` (lines 53-70): draw a document, record it for deletion, and draw
      again while its asset already exists on chain. `onChain` stands for the asset
      lookup; a lookup that fails counts as not on chain. The first draw (line 54) is
      outside the `try`, so an exhausted pool there overflows out of the call. The draw
      again (line 63) is inside it, so an overflow there is swallowed by the `catch` at
      lines 65-67 and the document just found on chain is returned. */
  function NonMintedDoc(pool: seq<AssetDoc>, taken: seq<string>, draws: seq<nat>, onChain: string -> bool)
    : (r: Drawn<(AssetDoc, seq<string>, seq<nat>)>)
    ensures r.Overflow? <==> Exhausted(pool, taken)
    ensures r.Overflow? ==> r.taken == taken
    ensures r.Drawn? ==> r.value.0 in pool
    ensures r.Drawn? ==> !onChain(r.value.0.assetName) || Exhausted(pool, r.value.1)
    decreases |draws|
  {
    if Exhausted(pool, taken) then Overflow(taken)
    else
      match RandomDoc(pool, taken, draws)
      case None => NoDraws
      case Some((doc, rest)) =>
        var taken' := taken + [doc.id];
        if onChain(doc.assetName) then
          var r := NonMintedDoc(pool, taken', rest, onChain);
          if r.Overflow? then Drawn((doc, taken', rest)) else r
        else Drawn((doc, taken', rest))
  }

  /** One step of a pick that succeeds: the document drawn, and what follows from it. */
  lemma NonMintedDocUnfold(pool: seq<AssetDoc>, taken: seq<string>, draws: seq<nat>, onChain: string -> bool)
    returns (doc: AssetDoc, rest: seq<nat>)
    requires NonMintedDoc(pool, taken, draws, onChain).Drawn?
    ensures doc in pool && |rest| < |draws|
    ensures var next := NonMintedDoc(pool, taken + [doc.id], rest, onChain);
            NonMintedDoc(pool, taken, draws, onChain)
            == if onChain(doc.assetName) && next.Drawn? then next else Drawn((doc, taken + [doc.id], rest))
  {
    doc, rest := RandomDoc(pool, taken, draws).value.0, RandomDoc(pool, taken, draws).value.1;
  }

  /** What a pick records for deletion: the ids taken before, then at least the one
      document it draws. */
  lemma {:induction false} NonMintedDocRecords(pool: seq<AssetDoc>, taken: seq<string>, draws: seq<nat>, onChain: string -> bool)
    requires NonMintedDoc(pool, taken, draws, onChain).Drawn?
    ensures var r := NonMintedDoc(pool, taken, draws, onChain).value;
            |r.1| > |taken| && r.1[..|taken|] == taken
    decreases |draws|
  {
    var doc, rest := NonMintedDocUnfold(pool, taken, draws, onChain);
    var taken' := taken + [doc.id];
    var next := NonMintedDoc(pool, taken', rest, onChain);
    if onChain(doc.assetName) && next.Drawn? {
      assert NonMintedDoc(pool, taken, draws, onChain) == next;
      NonMintedDocRecords(pool, taken', rest, onChain);
      ExtendsPrefix(next.value.1, taken, doc.id);
    } else {
      assert NonMintedDoc(pool, taken, draws, onChain).value == (doc, taken', rest);
    }
  }

  /** The last id a pick records is that of the document it returns. */
  lemma {:induction false} NonMintedDocLast(pool: seq<AssetDoc>, taken: seq<string>, draws: seq<nat>, onChain: string -> bool)
    requires NonMintedDoc(pool, taken, draws, onChain).Drawn?
    ensures var r := NonMintedDoc(pool, taken, draws, onChain).value;
            |r.1| > 0 && r.1[|r.1| - 1] == r.0.id
    decreases |draws|
  {
    var doc, rest := NonMintedDocUnfold(pool, taken, draws, onChain);
    var taken' := taken + [doc.id];
    var next := NonMintedDoc(pool, taken', rest, onChain);
    if onChain(doc.assetName) && next.Drawn? {
      assert NonMintedDoc(pool, taken, draws, onChain) == next;
      NonMintedDocLast(pool, taken', rest, onChain);
    } else {
      assert NonMintedDoc(pool, taken, draws, onChain).value == (doc, taken', rest);
    }
  }

  /** The first id a pick records is that of the first document it draws. */
  lemma NonMintedDocFirst(pool: seq<AssetDoc>, taken: seq<string>, draws: seq<nat>, onChain: string -> bool)
    requires NonMintedDoc(pool, taken, draws, onChain).Drawn?
    ensures |NonMintedDoc(pool, taken, draws, onChain).value.1| > |taken|
    ensures NonMintedDoc(pool, taken, draws, onChain).value.1[|taken|] == RandomDoc(pool, taken, draws).value.0.id
  {
    assert RandomDoc(pool, taken, draws).Some?;
    var (doc, rest) := RandomDoc(pool, taken, draws).value;
    var taken' := taken + [doc.id];
    var next := NonMintedDoc(pool, taken', rest, onChain);
    if onChain(doc.assetName) && next.Drawn? {
      assert NonMintedDoc(pool, taken, draws, onChain) == next;
      NonMintedDocRecords(pool, taken', rest, onChain);
      ExtendsPrefix(next.value.1, taken, doc.id);
    } else {
      assert NonMintedDoc(pool, taken, draws, onChain).value == (doc, taken', rest);
    }
  }

  /** Every id a pick records is the id of a pool document. */
  lemma {:induction false} NonMintedDocIds(pool: seq<AssetDoc>, taken: seq<string>, draws: seq<nat>, onChain: string -> bool)
    requires NonMintedDoc(pool, taken, draws, onChain).Drawn?
    ensures var r := NonMintedDoc(pool, taken, draws, onChain).value;
            forall k :: |taken| <= k < |r.1| ==> IsPoolId(pool, r.1[k])
    decreases |draws|
  {
    var r := NonMintedDoc(pool, taken, draws, onChain).value;
    var doc, rest := NonMintedDocUnfold(pool, taken, draws, onChain);
    var taken' := taken + [doc.id];
    assert IsPoolId(pool, doc.id);
    if onChain(doc.assetName) && NonMintedDoc(pool, taken', rest, onChain).Drawn? {
      NonMintedDocIds(pool, taken', rest, onChain);
      NonMintedDocRecords(pool, taken', rest, onChain);
      ExtendsPrefix(r.1, taken, doc.id);
      forall k | |taken| <= k < |r.1| ensures IsPoolId(pool, r.1[k]) {
        if k == |taken| {
          assert r.1[k] == doc.id;
        }
      }
    } else {
      assert r.1[|taken|] == doc.id;
    }
  }

  /** A document with this id whose asset is already on chain. */
  predicate OnChainId(pool: seq<AssetDoc>, id: string, onChain: string -> bool) {
    exists d :: d in pool && d.id == id && onChain(d.assetName)
  }

  /** Every id a pick records before the last one is that of a document skipped for
      being on chain (line 48 records it before the lookup at line 58). */
  lemma {:induction false} NonMintedDocSkipped(pool: seq<AssetDoc>, taken: seq<string>, draws: seq<nat>, onChain: string -> bool)
    requires NonMintedDoc(pool, taken, draws, onChain).Drawn?
    ensures var r := NonMintedDoc(pool, taken, draws, onChain).value;
            forall k :: |taken| <= k < |r.1| - 1 ==> OnChainId(pool, r.1[k], onChain)
    decreases |draws|
  {
    var r := NonMintedDoc(pool, taken, draws, onChain).value;
    var doc, rest := NonMintedDocUnfold(pool, taken, draws, onChain);
    var taken' := taken + [doc.id];
    if onChain(doc.assetName) && NonMintedDoc(pool, taken', rest, onChain).Drawn? {
      NonMintedDocSkipped(pool, taken', rest, onChain);
      NonMintedDocRecords(pool, taken', rest, onChain);
      ExtendsPrefix(r.1, taken, doc.id);
      forall k | |taken| <= k < |r.1| - 1 ensures OnChainId(pool, r.1[k], onChain) {
        if k == |taken| {
          assert r.1[k] == doc.id;
        }
      }
    }
  }

  /** Pool `[a, b]` with `a` on chain and draws `[0, 1]`: both ids are recorded, the
      skipped one first. */
  lemma SkippedDocIsRecorded(a: AssetDoc, b: AssetDoc, onChain: string -> bool)
    requires a.id != "" && a.id != b.id && onChain(a.assetName) && !onChain(b.assetName)
    ensures NonMintedDoc([a, b], [], [0, 1], onChain) == Drawn((b, [a.id, b.id], []))
  {
    assert RandomDoc([a, b], [], [0, 1]) == Some((a, [1]));
    assert !TakenAt([a, b], [], 0);
    assert !Exhausted([a, b], []);
    assert [] + [a.id] == [a.id];
    assert RandomDoc([a, b], [a.id], [1]) == Some((b, []));
    assert !TakenAt([a, b], [a.id], 1);
    assert !Exhausted([a, b], [a.id]);
    assert [a.id] + [b.id] == [a.id, b.id];
  }

  lemma ExtendsPrefix(s: seq<string>, a: seq<string>, x: string)
    requires |s| > |a| + 1 && s[..|a| + 1] == a + [x]
    ensures s[..|a|] == a && s[|a|] == x
  {
    assert s[..|a|] == s[..|a| + 1][..|a|];
    assert s[|a|] == s[..|a| + 1][|a|];
  }

  /** A pool whose one document is already on chain: the draw again after the lookup
      finds the pool exhausted, the overflow is swallowed, and that document is returned
      to be minted again. */
  lemma OnChainLastDocIsReturned(d: AssetDoc, onChain: string -> bool)
    requires d.id != "" && onChain(d.assetName)
    ensures NonMintedDoc([d], [], [0], onChain) == Drawn((d, [d.id], []))
  {
    assert RandomDoc([d], [], [0]) == Some((d, []));
    assert !TakenAt([d], [], 0);
    assert !Exhausted([d], []);
    assert [] + [d.id] == [d.id];
    assert Exhausted([d], [d.id]);
    assert NonMintedDoc([d], [d.id], [], onChain) == Overflow([d.id]);
  }

  /** An empty pool overflows on the first draw, whatever the draws. */
  lemma EmptyPoolOverflows(draws: seq<nat>, onChain: string -> bool)
    ensures NonMintedDoc([], [], draws, onChain) == Overflow([])
  {
  }

  predicate IsPoolId(pool: seq<AssetDoc>, id: string) {
    exists d :: d in pool && d.id == id
  }

  predicate NoDuplicates(ids: seq<string>) {
    forall p, q :: 0 <= p < q < |ids| ==> ids[p] != ids[q]
  }

  /** Every id in the list is the id of some asset document. */
  predicate IdsFromPool(ids: seq<string>, pool: seq<AssetDoc>) {
    forall k :: 0 <= k < |ids| ==> IsPoolId(pool, ids[k])
  }

  /** Every asset document has a non-empty id, as the document store guarantees. */
  predicate NonEmptyIds(pool: seq<AssetDoc>) {
    forall k :: 0 <= k < |pool| ==> pool[k].id != ""
  }

  /** Recording one more drawn id keeps the list free of duplicates. */
  lemma NoDuplicatesStep(pool: seq<AssetDoc>, taken: seq<string>, draws: seq<nat>, onChain: string -> bool)
    requires NonEmptyIds(pool) && NoDuplicates(taken)
    requires NonMintedDoc(pool, taken, draws, onChain).Drawn?
    ensures NoDuplicates(NonMintedDoc(pool, taken, draws, onChain).value.1)
    decreases |draws|
  {
    match RandomDoc(pool, taken, draws)
    case Some((doc, rest)) =>
      var taken' := taken + [doc.id];
      assert doc.id != "" by {
        var k :| 0 <= k < |pool| && pool[k] == doc;
      }
      assert doc.id !in taken;
      if onChain(doc.assetName) && NonMintedDoc(pool, taken', rest, onChain).Drawn? {
        NoDuplicatesStep(pool, taken', rest, onChain);
      }
  }

  /** Every id recorded while drawing names a document of the pool. */
  lemma IdsFromPoolStep(pool: seq<AssetDoc>, taken: seq<string>, draws: seq<nat>, onChain: string -> bool)
    requires IdsFromPool(taken, pool)
    requires NonMintedDoc(pool, taken, draws, onChain).Drawn?
    ensures IdsFromPool(NonMintedDoc(pool, taken, draws, onChain).value.1, pool)
  {
    NonMintedDocRecords(pool, taken, draws, onChain);
    NonMintedDocIds(pool, taken, draws, onChain);
    var taken' := NonMintedDoc(pool, taken, draws, onChain).value.1;
    forall k | 0 <= k < |taken'| ensures IsPoolId(pool, taken'[k]) {
      if k < |taken| {
        assert taken'[k] == taken'[..|taken|][k] == taken[k];
      }
    }
  }

  /** Every item goes to `address` and names an asset of the pool; an item whose asset is
      already on chain can only be the last one, and only once `taken` exhausts the pool. */
  predicate MintableItems(items: seq<MintItem>, pool: seq<AssetDoc>, address: string, taken: seq<string>,
                          onChain: string -> bool) {
    forall k :: 0 <= k < |items| ==>
      items[k].recipient == address && (exists d :: d in pool && d.assetName == items[k].assetName)
      && (onChain(items[k].assetName) ==> k == |items| - 1 && Exhausted(pool, taken))
  }

  /** Appending a document drawn while the pool was not yet exhausted. */
  lemma MintableItemsAppend(items: seq<MintItem>, doc: AssetDoc, pool: seq<AssetDoc>, address: string,
                            taken: seq<string>, taken': seq<string>, onChain: string -> bool)
    requires MintableItems(items, pool, address, taken, onChain)
    requires !Exhausted(pool, taken)
    requires doc in pool && (!onChain(doc.assetName) || Exhausted(pool, taken'))
    ensures MintableItems(items + [MintItem(doc.assetName, address)], pool, address, taken', onChain)
  {
    var items' := items + [MintItem(doc.assetName, address)];
    forall k | 0 <= k < |items'|
      ensures items'[k].recipient == address
      ensures exists d :: d in pool && d.assetName == items'[k].assetName
      ensures onChain(items'[k].assetName) ==> k == |items'| - 1 && Exhausted(pool, taken')
    {
      if k < |items| {
        assert items'[k] == items[k];
      } else {
        assert items'[k].assetName == doc.assetName;
      }
    }
  }

  /** The `for` loop of lines 72-83 as a definition: `n` more picks, appending each
      document's item to `items` and recording ids in `taken`. */
  function SelectFrom(pool: seq<AssetDoc>, n: nat, address: string, items: seq<MintItem>, taken: seq<string>,
                      draws: seq<nat>, onChain: string -> bool): (r: Drawn<(seq<MintItem>, seq<string>)>)
    ensures r.Overflow? ==> Exhausted(pool, r.taken)
    decreases n
  {
    if n == 0 then Drawn((items, taken))
    else
      match NonMintedDoc(pool, taken, draws, onChain)
      case Overflow(t) => Overflow(t)
      case NoDraws => NoDraws
      case Drawn((doc, taken', rest)) =>
        SelectFrom(pool, n - 1, address, items + [MintItem(doc.assetName, address)], taken', rest, onChain)
  }

  lemma SelectFromUnfold(pool: seq<AssetDoc>, n: nat, address: string, items: seq<MintItem>, taken: seq<string>,
                         draws: seq<nat>, onChain: string -> bool)
    requires n > 0
    ensures var p := NonMintedDoc(pool, taken, draws, onChain);
            var r := SelectFrom(pool, n, address, items, taken, draws, onChain);
            && (p.Overflow? ==> r == Overflow(taken))
            && (p.NoDraws? ==> r == NoDraws)
            && (p.Drawn? ==> r == SelectFrom(pool, n - 1, address, items + [MintItem(p.value.0.assetName, address)],
                                             p.value.1, p.value.2, onChain))
  {
  }

  /** A successful pick leaves `n - 1` picks to go from the state it leaves. */
  lemma SelectFromNext(pool: seq<AssetDoc>, n: nat, address: string, items: seq<MintItem>, taken: seq<string>,
                       draws: seq<nat>, onChain: string -> bool, doc: AssetDoc, taken': seq<string>, rest: seq<nat>)
    requires n > 0 && NonMintedDoc(pool, taken, draws, onChain) == Drawn((doc, taken', rest))
    ensures SelectFrom(pool, n, address, items, taken, draws, onChain)
            == SelectFrom(pool, n - 1, address, items + [MintItem(doc.assetName, address)], taken', rest, onChain)
  {
  }

  /** The outcome of the loop for `count` mints, starting with nothing recorded. */
  function Selection(pool: seq<AssetDoc>, count: nat, address: string, draws: seq<nat>, onChain: string -> bool)
    : Drawn<(seq<MintItem>, seq<string>)>
  {
    SelectFrom(pool, count, address, [], [], draws, onChain)
  }

  /** Every draw indexes the pool. */
  predicate InRange(pool: seq<AssetDoc>, ds: seq<nat>) {
    forall k :: 0 <= k < |ds| ==> ds[k] < |pool|
  }

  /** The items the documents at the draws `ds` give, sent to `address`. */
  function Picks(pool: seq<AssetDoc>, ds: seq<nat>, address: string): (items: seq<MintItem>)
    requires InRange(pool, ds)
    ensures |items| == |ds|
    ensures forall k :: 0 <= k < |ds| ==> items[k] == MintItem(pool[ds[k]].assetName, address)
    decreases |ds|
  {
    if |ds| == 0 then [] else [MintItem(pool[ds[0]].assetName, address)] + Picks(pool, ds[1..], address)
  }

  /** The ids of the documents at the draws `ds`. */
  function PickedIds(pool: seq<AssetDoc>, ds: seq<nat>): (ids: seq<string>)
    requires InRange(pool, ds)
    ensures |ids| == |ds|
    ensures forall k :: 0 <= k < |ds| ==> ids[k] == pool[ds[k]].id
    decreases |ds|
  {
    if |ds| == 0 then [] else [pool[ds[0]].id] + PickedIds(pool, ds[1..])
  }

  /** Draws that each land on a distinct pool document not yet taken and not on chain. */
  predicate GoodDraws(pool: seq<AssetDoc>, taken: seq<string>, ds: seq<nat>, onChain: string -> bool) {
    InRange(pool, ds)
    && (forall k :: 0 <= k < |ds| ==> !onChain(pool[ds[k]].assetName) && pool[ds[k]].id !in taken)
    && NoDuplicates(PickedIds(pool, ds))
  }

  /** A good first draw is the document the pick returns. */
  lemma GoodFirstDraw(pool: seq<AssetDoc>, taken: seq<string>, draws: seq<nat>, onChain: string -> bool)
    requires |draws| > 0 && draws[0] < |pool|
    requires !onChain(pool[draws[0]].assetName) && pool[draws[0]].id !in taken
    ensures NonMintedDoc(pool, taken, draws, onChain)
            == Drawn((pool[draws[0]], taken + [pool[draws[0]].id], draws[1..]))
  {
    assert !TakenAt(pool, taken, draws[0]);
    assert !Exhausted(pool, taken);
    assert RandomDoc(pool, taken, draws) == Some((pool[draws[0]], draws[1..]));
  }

  lemma GoodDrawsTail(pool: seq<AssetDoc>, taken: seq<string>, ds: seq<nat>, onChain: string -> bool)
    requires |ds| > 0 && GoodDraws(pool, taken, ds, onChain)
    ensures GoodDraws(pool, taken + [pool[ds[0]].id], ds[1..], onChain)
    ensures PickedIds(pool, ds) == [pool[ds[0]].id] + PickedIds(pool, ds[1..])
  {
    var ids := PickedIds(pool, ds);
    var tail := ds[1..];
    forall k | 0 <= k < |tail|
      ensures !onChain(pool[tail[k]].assetName) && pool[tail[k]].id !in taken + [pool[ds[0]].id]
    {
      assert tail[k] == ds[k + 1];
      assert ids[0] != ids[k + 1];
    }
    var ids' := PickedIds(pool, tail);
    forall p, q | 0 <= p < q < |ids'| ensures ids'[p] != ids'[q] {
      assert ids'[p] == ids[p + 1] && ids'[q] == ids[q + 1];
    }
  }

  lemma PicksCons(pool: seq<AssetDoc>, ds: seq<nat>, address: string, items: seq<MintItem>, taken: seq<string>)
    requires |ds| > 0 && InRange(pool, ds)
    ensures items + [MintItem(pool[ds[0]].assetName, address)] + Picks(pool, ds[1..], address) == items + Picks(pool, ds, address)
    ensures taken + [pool[ds[0]].id] + PickedIds(pool, ds[1..]) == taken + PickedIds(pool, ds)
  {
  }

  /** With good draws for every mint, the loop takes exactly the documents drawn, in
      order, and records exactly their ids. */
  lemma {:induction false} GoodDrawsSelect(pool: seq<AssetDoc>, n: nat, address: string, items: seq<MintItem>,
                                           taken: seq<string>, draws: seq<nat>, onChain: string -> bool)
    requires n <= |draws| && GoodDraws(pool, taken, draws[..n], onChain)
    ensures SelectFrom(pool, n, address, items, taken, draws, onChain)
            == Drawn((items + Picks(pool, draws[..n], address), taken + PickedIds(pool, draws[..n])))
    decreases n
  {
    var ds := draws[..n];
    if n == 0 {
      assert items + Picks(pool, ds, address) == items;
      assert taken + PickedIds(pool, ds) == taken;
    } else {
      var doc := pool[draws[0]];
      var item := MintItem(doc.assetName, address);
      assert ds[0] == draws[0];
      GoodFirstDraw(pool, taken, draws, onChain);
      SelectFromUnfold(pool, n, address, items, taken, draws, onChain);
      GoodDrawsTail(pool, taken, ds, onChain);
      assert ds[1..] == draws[1..][..n - 1];
      GoodDrawsSelect(pool, n - 1, address, items + [item], taken + [doc.id], draws[1..], onChain);
      PicksCons(pool, ds, address, items, taken);
    }
  }

  /** With good draws for every mint, the loop mints exactly the documents drawn. */
  lemma GoodSelection(pool: seq<AssetDoc>, count: nat, address: string, draws: seq<nat>, onChain: string -> bool)
    requires count <= |draws| && GoodDraws(pool, [], draws[..count], onChain)
    ensures Selection(pool, count, address, draws, onChain)
            == Drawn((Picks(pool, draws[..count], address), PickedIds(pool, draws[..count])))
  {
    var items, ids := Picks(pool, draws[..count], address), PickedIds(pool, draws[..count]);
    var none: seq<MintItem>, nothing: seq<string> := [], [];
    assert none + items == items && nothing + ids == ids;
    GoodDrawsSelect(pool, count, address, none, nothing, draws, onChain);
  }

  /** What the loop keeps: at least one recorded id per item, the items mintable, the
      recorded ids distinct pool ids. */
  predicate Recorded(pool: seq<AssetDoc>, address: string, items: seq<MintItem>, taken: seq<string>, onChain: string -> bool) {
    |items| <= |taken| && MintableItems(items, pool, address, taken, onChain) && NoDuplicates(taken) && IdsFromPool(taken, pool)
  }

  /** One successful pick keeps what the loop keeps. */
  lemma SelectStep(pool: seq<AssetDoc>, address: string, items: seq<MintItem>, taken: seq<string>, rest: seq<nat>,
                   onChain: string -> bool)
    requires NonEmptyIds(pool) && Recorded(pool, address, items, taken, onChain)
    requires NonMintedDoc(pool, taken, rest, onChain).Drawn?
    ensures var p := NonMintedDoc(pool, taken, rest, onChain).value;
            Recorded(pool, address, items + [MintItem(p.0.assetName, address)], p.1, onChain)
  {
    var p := NonMintedDoc(pool, taken, rest, onChain).value;
    NoDuplicatesStep(pool, taken, rest, onChain);
    NonMintedDocRecords(pool, taken, rest, onChain);
    NonMintedDocLast(pool, taken, rest, onChain);
    IdsFromPoolStep(pool, taken, rest, onChain);
    MintableItemsAppend(items, p.0, pool, address, taken, p.1, onChain);
  }

  /** Whatever the loop goes on to pick keeps what the loop keeps; an overflow comes
      with the ids recorded so far. */
  lemma {:induction false} SelectFromKeeps(pool: seq<AssetDoc>, n: nat, address: string, items: seq<MintItem>,
                                           taken: seq<string>, draws: seq<nat>, onChain: string -> bool)
    requires NonEmptyIds(pool) && Recorded(pool, address, items, taken, onChain)
    ensures var r := SelectFrom(pool, n, address, items, taken, draws, onChain);
            && (r.Drawn? ==> |r.value.0| == |items| + n && Recorded(pool, address, r.value.0, r.value.1, onChain))
            && (r.Overflow? ==> NoDuplicates(r.taken) && IdsFromPool(r.taken, pool))
    decreases n
  {
    if n > 0 {
      SelectFromUnfold(pool, n, address, items, taken, draws, onChain);
      var p := NonMintedDoc(pool, taken, draws, onChain);
      if p.Drawn? {
        SelectStep(pool, address, items, taken, draws, onChain);
        SelectFromKeeps(pool, n - 1, address, items + [MintItem(p.value.0.assetName, address)], p.value.1, p.value.2, onChain);
      }
    }
  }

  /** What the loop yields: `count` items to `address` for pool assets, none of them on
      chain unless the recorded ids exhaust the pool and then only the last, with the
      recorded ids distinct pool ids; an overflow happens only on an exhausted pool. */
  lemma SelectionFacts(pool: seq<AssetDoc>, count: nat, address: string, draws: seq<nat>, onChain: string -> bool)
    requires NonEmptyIds(pool)
    ensures var r := Selection(pool, count, address, draws, onChain);
            && (count == 0 ==> r == Drawn(([], [])))
            && (r.Drawn? ==> |r.value.0| == count && |r.value.1| >= count)
            && (r.Drawn? ==> MintableItems(r.value.0, pool, address, r.value.1, onChain))
            && (r.Drawn? ==> NoDuplicates(r.value.1) && IdsFromPool(r.value.1, pool))
            && (r.Overflow? ==> count > 0 && Exhausted(pool, r.taken) && NoDuplicates(r.taken) && IdsFromPool(r.taken, pool))
  {
    SelectFromKeeps(pool, count, address, [], [], draws, onChain);
  }

  /** Without an exhausted pool no item minted is already on chain. */
  lemma MintableOffChain(items: seq<MintItem>, pool: seq<AssetDoc>, address: string, taken: seq<string>, onChain: string -> bool)
    requires MintableItems(items, pool, address, taken, onChain) && !Exhausted(pool, taken)
    ensures forall k :: 0 <= k < |items| ==> !onChain(items[k].assetName)
  {
  }

  /** The loop of lines 72-83: draw `count` documents, each minted to `address`, until
      the count is reached, a first draw overflows, or the draws run out. */
  method SelectDocs(pool: seq<AssetDoc>, count: nat, address: string, draws: seq<nat>, onChain: string -> bool)
    returns (r: Drawn<(seq<MintItem>, seq<string>)>)
    ensures r == Selection(pool, count, address, draws, onChain)
  {
    var items: seq<MintItem> := [];
    var taken: seq<string> := [];
    var rest := draws;
    var left := count;
    ghost var goal := Selection(pool, count, address, draws, onChain);
    while left > 0
      invariant SelectFrom(pool, left, address, items, taken, rest, onChain) == goal
    {
      var picked := NonMintedDoc(pool, taken, rest, onChain);
      if !picked.Drawn? {
        SelectFromUnfold(pool, left, address, items, taken, rest, onChain);
        return if picked.Overflow? then Overflow(taken) else NoDraws;
      }
      var (doc, taken', rest') := picked.value;
      SelectFromNext(pool, left, address, items, taken, rest, onChain, doc, taken', rest');
      items, taken, rest := items + [MintItem(doc.assetName, address)], taken', rest';
      left := left - 1;
    }
    r := Drawn((items, taken));
  }

  /** What the endpoint answers. `MintSent` carries the transaction hash, the items minted,
      the record as updated, and the asset ids deleted; `ServerError` is the 500 answer
      of the `catch` at lines 135-138, reached when a first draw overflows the stack or
      the mint transaction cannot be built, signed or submitted; `OutOfDraws` is the
      model's horizon when the supply of random draws ends. */
  datatype Response =
    | Refused(refusal: Refusal)
    | MintSent(txHash: string, items: seq<MintItem>, updated: SwapRecord, deleted: seq<string>)
    | ServerError
    | OutOfDraws

  /** The handler (lines 16-140). `swap` is the looked-up swap document (None when it does
      not exist), `submit` stands for building, signing and submitting the mint
      transaction (None when any of those throws). An accepted request ends in exactly
      one of: the mint, a 500 for a first-draw overflow or a failed submission, or the
      end of the draws; with good draws for every mint it mints whenever submission
      succeeds. */
  method Handle(verb: string, swap: Option<SwapRecord>, pool: seq<AssetDoc>, draws: seq<nat>,
                onChain: string -> bool, submit: seq<MintItem> -> Option<string>)
    returns (resp: Response)
    requires NonEmptyIds(pool)
    ensures Guard(verb, swap).Some? <==> resp.Refused?
    ensures resp.Refused? ==> resp.refusal == Guard(verb, swap).value
    ensures Guard(verb, swap).None? ==>
              var sel := Selection(pool, MintCount(swap.value), swap.value.address, draws, onChain);
              && (resp.OutOfDraws? <==> sel.NoDraws?)
              && (resp.ServerError? <==> sel.Overflow? || (sel.Drawn? && submit(sel.value.0).None?))
              && (resp.MintSent? <==> sel.Drawn? && submit(sel.value.0).Some?)
              && (resp.MintSent? ==> resp.items == sel.value.0 && resp.deleted == sel.value.1)
    ensures Guard(verb, swap).None? && MintCount(swap.value) <= |draws|
            && GoodDraws(pool, [], draws[..MintCount(swap.value)], onChain) ==>
              var items := Picks(pool, draws[..MintCount(swap.value)], swap.value.address);
              (resp.MintSent? <==> submit(items).Some?) && (resp.MintSent? ==> resp.items == items)
    ensures resp.MintSent? ==> swap.Some? && |resp.items| == MintCount(swap.value)
    ensures resp.MintSent? ==> resp.updated == AfterMint(swap.value, MintCount(swap.value))
    ensures resp.MintSent? ==> MintableItems(resp.items, pool, swap.value.address, resp.deleted, onChain)
    ensures resp.MintSent? && !Exhausted(pool, resp.deleted) ==>
              forall k :: 0 <= k < |resp.items| ==> !onChain(resp.items[k].assetName)
    ensures resp.MintSent? ==> NoDuplicates(resp.deleted) && |resp.deleted| >= |resp.items|
    ensures resp.MintSent? ==> submit(resp.items) == Some(resp.txHash)
  {
    var g := Guard(verb, swap);
    if g.Some? {
      return Refused(g.value);
    }
    var s := swap.value;
    var count := MintCount(s);
    if count <= |draws| && GoodDraws(pool, [], draws[..count], onChain) {
      GoodSelection(pool, count, s.address, draws, onChain);
    }
    SelectionFacts(pool, count, s.address, draws, onChain);
    var selected := SelectDocs(pool, count, s.address, draws, onChain);
    if selected.Overflow? {
      return ServerError;
    } else if selected.NoDraws? {
      return OutOfDraws;
    }
    var (items, deleted) := selected.value;
    if !Exhausted(pool, deleted) {
      MintableOffChain(items, pool, s.address, deleted, onChain);
    }
    var sent := submit(items);
    if sent.None? {
      return ServerError;
    }
    resp := MintSent(sent.value, items, AfterMint(s, |items|), deleted);
  }
}

=== FILE: options.dfy ===
/** The optional value used throughout the model: a JavaScript value that may be `undefined`. */
module Options {

  datatype Option<+T> = None | Some(value: T) {

    /** The wrapped value, or `default` when there is none (JavaScript's `x || default`
        when `x` is falsy exactly when it is absent). */
    function GetOr(default: T): T {
      match this
      case Some(v) => v
      case None => default
    }
  }
}

=== FILE: recipients.dfy ===
/** The payout list: one record per recipient (src/functions/buildTxs.ts lines 6-11),
    the unpaid filter (line 21) and the stamping of a confirmed batch (lines 78-87). */
module Recipients {

  import opened Options

  /** `amount` is in the token's smallest unit (lovelace for ADA). */
  datatype Recipient = Recipient(address: string, tokenId: string, amount: int, transactionId: Option<string>)

  /** The record has a truthy `transactionId`: present and not the empty string. */
  predicate IsPaid(r: Recipient) {
    r.transactionId.Some? && r.transactionId.value != ""
  }

  /** Two records ask for the same payment: same address, token and amount. */
  predicate SameTriple(a: Recipient, b: Recipient) {
    a.address == b.address && a.tokenId == b.tokenId && a.amount == b.amount
  }

  /** `recipients.filter(({ transactionId }) => !transactionId)`. */
  function Unpaid(rs: seq<Recipient>): (u: seq<Recipient>)
    ensures forall x :: x in u <==> x in rs && !IsPaid(x)
    ensures |u| <= |rs|
    decreases |rs|
  {
    if |rs| == 0 then []
    else (if IsPaid(rs[0]) then [] else [rs[0]]) + Unpaid(rs[1..])
  }

  /** The filter keeps relative order: it works piecewise over a concatenation. */
  lemma {:induction false} UnpaidAppend(a: seq<Recipient>, b: seq<Recipient>)
    ensures Unpaid(a + b) == Unpaid(a) + Unpaid(b)
    decreases |a|
  {
    if |a| == 0 {
      assert a + b == b;
    } else {
      assert (a + b)[0] == a[0];
      assert (a + b)[1..] == a[1..] + b;
      UnpaidAppend(a[1..], b);
    }
  }

  /** A list whose every record is paid has nothing left to pay. */
  lemma {:induction false} UnpaidOfPaid(rs: seq<Recipient>)
    requires forall i :: 0 <= i < |rs| ==> IsPaid(rs[i])
    ensures Unpaid(rs) == []
    decreases |rs|
  {
    if |rs| > 0 {
      assert IsPaid(rs[0]);
      UnpaidOfPaid(rs[1..]);
    }
  }

  /** Some record of `batch` asks for the same payment as `r` (the `batch.some(..)` test). */
  predicate InBatch(batch: seq<Recipient>, r: Recipient) {
    exists b :: b in batch && SameTriple(b, r)
  }

  /** `recipients.map(..)` after a batch confirmed under `txHash`: every record whose
      (address, tokenId, amount) matches a batch record gets that `transactionId`. */
  function Mark(rs: seq<Recipient>, batch: seq<Recipient>, txHash: string): (out: seq<Recipient>)
    ensures |out| == |rs|
    ensures forall i :: 0 <= i < |rs| ==> SameTriple(out[i], rs[i])
    ensures forall i :: 0 <= i < |rs| && InBatch(batch, rs[i]) ==> out[i].transactionId == Some(txHash)
    ensures forall i :: 0 <= i < |rs| && !InBatch(batch, rs[i]) ==> out[i] == rs[i]
    decreases |rs|
  {
    if |rs| == 0 then []
    else
      var head := if InBatch(batch, rs[0]) then rs[0].(transactionId := Some(txHash)) else rs[0];
      [head] + Mark(rs[1..], batch, txHash)
  }

  /** No two records of the list ask for the same payment. */
  predicate DistinctTriples(rs: seq<Recipient>) {
    forall p, q :: 0 <= p < q < |rs| ==> !SameTriple(rs[p], rs[q])
  }

  /** Filtering keeps the requested payments distinct. */
  lemma {:induction false} UnpaidDistinct(rs: seq<Recipient>)
    requires DistinctTriples(rs)
    ensures DistinctTriples(Unpaid(rs))
    decreases |rs|
  {
    if |rs| > 0 {
      var tail := rs[1..];
      assert DistinctTriples(tail) by {
        forall p, q | 0 <= p < q < |tail| ensures !SameTriple(tail[p], tail[q]) {
          assert tail[p] == rs[p + 1] && tail[q] == rs[q + 1];
        }
      }
      UnpaidDistinct(tail);
      var u := Unpaid(tail);
      if !IsPaid(rs[0]) {
        forall q | 0 <= q < |u| ensures !SameTriple(rs[0], u[q]) {
          assert u[q] in tail;
          var j :| 0 <= j < |tail| && tail[j] == u[q];
          assert tail[j] == rs[j + 1];
        }
        assert Unpaid(rs) == [rs[0]] + u;
      }
    }
  }

  /** The triple distinctness of a list carries over to any tail of it. */
  lemma DistinctSuffix(a: seq<Recipient>, b: seq<Recipient>)
    requires DistinctTriples(a + b)
    ensures DistinctTriples(b)
  {
    forall p, q | 0 <= p < q < |b| ensures !SameTriple(b[p], b[q]) {
      assert b[p] == (a + b)[|a| + p] && b[q] == (a + b)[|a| + q];
    }
  }
}

=== FILE: size_error.dfy ===
/** Reading the ledger's "transaction too large" failure (src/functions/buildTxs.ts
    lines 93-102): the marker test, the two numbers pulled out of the message text,
    and the corrected batch-size fraction. */
module SizeError {

  import opened Options
  import opened Text
  import opened Arith
  import opened Batching

  const SizeMarker := "Maximum transaction size"

  /** `!!errMsg && errMsg.indexOf('Maximum transaction size') !== -1`. */
  predicate IsSizeError(msg: string): (b: bool)
    ensures b <==> exists i: nat :: OccursAt(msg, SizeMarker, i)
  {
    ContainsIffOccurs(msg, SizeMarker);
    msg != "" && Contains(msg, SizeMarker)
  }

  /** `tokens.map((str) => Number(str.replace(/[^\d]/g, ''))).filter((num) => num && !isNaN(num))`:
      the numbers spelled by the digits of each token, zeros (digit-free tokens) dropped. */
  function NonzeroNumbers(tokens: seq<string>): (ns: seq<nat>)
    ensures forall k :: 0 <= k < |ns| ==> ns[k] > 0
    ensures |ns| <= |tokens|
    decreases |tokens|
  {
    if |tokens| == 0 then []
    else
      var v := DecimalValue(Digits(tokens[0]));
      (if v > 0 then [v] else []) + NonzeroNumbers(tokens[1..])
  }

  lemma {:induction false} NonzeroNumbersAppend(a: seq<string>, b: seq<string>)
    ensures NonzeroNumbers(a + b) == NonzeroNumbers(a) + NonzeroNumbers(b)
    decreases |a|
  {
    if |a| == 0 {
      assert a + b == b;
    } else {
      assert (a + b)[0] == a[0];
      assert (a + b)[1..] == a[1..] + b;
      NonzeroNumbersAppend(a[1..], b);
    }
  }

  /** The two sizes the message reports: the limit and the size actually found. */
  datatype SizeReport = SizeReport(max: Pos, curr: Pos)

  /** `const [max, curr] = ..`: the first two nonzero numbers, or None when the message
      holds fewer than two (then `max / curr` is NaN in the source). */
  function ParseSizeReport(msg: string): (r: Option<SizeReport>)
    ensures r.Some? <==> |NonzeroNumbers(Split(msg, ' '))| >= 2
  {
    var ns := NonzeroNumbers(Split(msg, ' '));
    if |ns| >= 2 then Some(SizeReport(ns[0], ns[1])) else None
  }

  /** `(difference || 1) * (max / curr)`. A failed parse gives NaN, which behaves as an
      absent fraction wherever the source reads it again, and is modelled as None. */
  function Corrected(d: Option<Fraction>, report: Option<SizeReport>): (d': Option<Fraction>)
    ensures report.None? ==> !Truthy(d')
    ensures report.Some? ==> Truthy(d')
    ensures report.Some? && Truthy(d) ==>
              d'.value.num * d.value.den * report.value.curr == d.value.num * report.value.max * d'.value.den
    ensures report.Some? && !Truthy(d) ==> d'.value.num * report.value.curr == report.value.max * d'.value.den
  {
    match report
    case None => None
    case Some(SizeReport(max, curr)) =>
      var base := if Truthy(d) then d.value else Fraction(1, 1);
      Some(Fraction(base.num * max, base.den * curr))
  }

  /** The message text the ledger produces, around the two numbers. */
  function SizeMessage(prefix: string, max: Pos, curr: Pos, suffix: string): string {
    prefix + "Maximum transaction size of " + Show(max) + " exceeded. Found: " + Show(curr) + suffix
  }

  lemma {:induction false} DigitFreeNumbers(a: string)
    requires DigitFree(a)
    ensures NonzeroNumbers(Split(a, ' ')) == []
  {
    SplitDigitFree(a, ' ');
    NoNumbersInDigitFree(Split(a, ' '));
  }

  lemma {:induction false} NoNumbersInDigitFree(ts: seq<string>)
    requires forall k :: 0 <= k < |ts| ==> DigitFree(ts[k])
    ensures NonzeroNumbers(ts) == []
    decreases |ts|
  {
    if |ts| > 0 {
      DigitsOfDigitFree(ts[0]);
      NoNumbersInDigitFree(ts[1..]);
    }
  }

  /** A token made of a number's digits followed by digit-free text reads as that number. */
  lemma NumberToken(n: nat, tail: string)
    requires n > 0 && DigitFree(tail)
    ensures NonzeroNumbers([Show(n) + tail]) == [n]
  {
    DigitsAppend(Show(n), tail);
    DigitsOfDigitsOnly(Show(n));
    DigitsOfDigitFree(tail);
    assert Digits(Show(n) + tail) == Show(n);
    DecimalValueShow(n);
    assert [Show(n) + tail][1..] == [];
  }

  /** Digit-free text, a number, digit-free text and a number followed by digit-free
      text, separated by single spaces, read as exactly those two numbers. */
  lemma {:induction false} TwoNumbers(a: string, max: Pos, b: string, curr: Pos, tail: string)
    requires DigitFree(a) && DigitFree(b) && DigitFree(tail) && ' ' !in tail
    ensures NonzeroNumbers(Split(a + [' '] + (Show(max) + [' '] + (b + [' '] + (Show(curr) + tail))), ' '))
            == [max as nat, curr as nat]
  {
    var x := Show(max);
    var y := Show(curr) + tail;
    var tokens := Split(a, ' ') + ([x] + (Split(b, ' ') + [y]));
    assert Split(a + [' '] + (x + [' '] + (b + [' '] + y)), ' ') == tokens by {
      SplitAppend(a, ' ', x + [' '] + (b + [' '] + y));
      SplitAppend(x, ' ', b + [' '] + y);
      SplitAppend(b, ' ', y);
      assert ' ' !in x;
      SplitNoSep(x, ' ');
      assert ' ' !in y;
      SplitNoSep(y, ' ');
    }
    assert NonzeroNumbers(tokens)
           == NonzeroNumbers(Split(a, ' ')) + (NonzeroNumbers([x]) + (NonzeroNumbers(Split(b, ' ')) + NonzeroNumbers([y]))) by {
      NonzeroNumbersAppend(Split(a, ' '), [x] + (Split(b, ' ') + [y]));
      NonzeroNumbersAppend([x], Split(b, ' ') + [y]);
      NonzeroNumbersAppend(Split(b, ' '), [y]);
    }
    assert NonzeroNumbers(Split(a, ' ')) == [] by {
      DigitFreeNumbers(a);
    }
    assert NonzeroNumbers(Split(b, ' ')) == [] by {
      DigitFreeNumbers(b);
    }
    assert NonzeroNumbers([x]) == [max as nat] by {
      NumberToken(max, "");
      assert x + "" == x;
    }
    assert NonzeroNumbers([y]) == [curr as nat] by {
      NumberToken(curr, tail);
    }
  }

  /** Any message of the ledger's form, whatever digit-free text surrounds it, parses
      to the two sizes it reports, and is recognised as a size error. */
  lemma {:induction false} ParseSizeMessage(prefix: string, max: Pos, curr: Pos, suffix: string)
    requires DigitFree(prefix) && DigitFree(suffix) && ' ' !in suffix
    ensures ParseSizeReport(SizeMessage(prefix, max, curr, suffix)) == Some(SizeReport(max, curr))
    ensures IsSizeError(SizeMessage(prefix, max, curr, suffix))
  {
    var msg := SizeMessage(prefix, max, curr, suffix);
    assert NonzeroNumbers(Split(msg, ' ')) == [max as nat, curr as nat] by {
      var a := prefix + "Maximum transaction size of";
      var b := "exceeded. Found:";
      FixedTextDigitFree();
      DigitFreeAppend(prefix, "Maximum transaction size of");
      TwoNumbers(a, max, b, curr, suffix);
      SizeMessageShape(prefix, Show(max), Show(curr), suffix);
    }
    SizeMarkerFound(prefix, max, curr, suffix);
  }

  /** The message with its single spaces around the numbers made explicit. */
  lemma SizeMessageShape(prefix: string, x: string, y: string, suffix: string)
    ensures prefix + "Maximum transaction size of " + x + " exceeded. Found: " + y + suffix
            == (prefix + "Maximum transaction size of") + [' '] + (x + [' '] + ("exceeded. Found:" + [' '] + (y + suffix)))
  {
    assert "Maximum transaction size of " == "Maximum transaction size of" + [' '];
    assert " exceeded. Found: " == [' '] + "exceeded. Found:" + [' '];
  }

  lemma FixedTextDigitFree()
    ensures DigitFree("Maximum transaction size of")
    ensures DigitFree("exceeded. Found:")
  {
  }

  lemma SizeMarkerFound(prefix: string, max: Pos, curr: Pos, suffix: string)
    ensures IsSizeError(SizeMessage(prefix, max, curr, suffix))
  {
    var msg := SizeMessage(prefix, max, curr, suffix);
    assert msg == prefix + SizeMarker + (" of " + Show(max) + " exceeded. Found: " + Show(curr) + suffix);
    assert OccursAt(msg, SizeMarker, |prefix|);
    ContainsIffOccurs(msg, SizeMarker);
  }

  /** The decimal renderings of the sizes in the documented messages. */
  lemma ShowSizes()
    ensures Show(16384) == "16384" && Show(21861) == "21861" && Show(19226) == "19226"
  {
    assert Show(16) == "16" && Show(163) == "163" && Show(1638) == "1638";
    assert Show(21) == "21" && Show(218) == "218" && Show(2186) == "2186";
    assert Show(19) == "19" && Show(192) == "192" && Show(1922) == "1922";
  }

  /** The text the older library put before the ledger's own message,
      "[Transaction] An error occurred during build: ", kept in three pieces so that
      its digit-free check splits along them. */
  const OldPrefix := "[Transaction]" + " An error occurred" + " during build: "

  lemma OldPrefixDigitFree()
    ensures DigitFree(OldPrefix)
  {
    var a, b, c := "[Transaction]", " An error occurred", " during build: ";
    assert DigitFree(a) && DigitFree(b) && DigitFree(c);
    DigitFreeAppend(a, b);
    DigitFreeAppend(a + b, c);
  }

  /** The message form the older ledger library produced reads as (limit, found). */
  lemma OldDocumentedMessage(msg: string)
    requires msg == OldPrefix + "Maximum transaction size of "
                    + "16384" + " exceeded. Found: " + "21861" + "."
    ensures IsSizeError(msg)
    ensures ParseSizeReport(msg) == Some(SizeReport(16384, 21861))
  {
    var prefix := OldPrefix;
    OldPrefixDigitFree();
    ShowSizes();
    assert SizeMessage(prefix, 16384, 21861, ".")
           == prefix + "Maximum transaction size of " + "16384" + " exceeded. Found: " + "21861" + ".";
    ParseSizeMessage(prefix, 16384, 21861, ".");
  }

  /** The message form the newer ledger library produces reads as (limit, found). */
  lemma NewDocumentedMessage(msg: string)
    requires msg == "txBuildResult error: JsValue(\"" + "Maximum transaction size of "
                    + "16384" + " exceeded. Found: " + "19226" + "\")"
    ensures IsSizeError(msg)
    ensures ParseSizeReport(msg) == Some(SizeReport(16384, 19226))
  {
    var prefix := "txBuildResult error: JsValue(\"";
    ShowSizes();
    assert SizeMessage(prefix, 16384, 19226, "\")")
           == prefix + "Maximum transaction size of " + "16384" + " exceeded. Found: " + "19226" + "\")";
    ParseSizeMessage(prefix, 16384, 19226, "\")");
  }

  /** A retry never asks for larger batches: when the ledger reports a size above its
      limit, the corrected fraction yields at most the batch size of the fraction it
      replaces (or of the whole list, when there was none). */
  lemma CorrectedShrinks(d: Option<Fraction>, max: Pos, curr: Pos, n: nat)
    requires max < curr
    ensures BatchSize(Corrected(d, Some(SizeReport(max, curr))), n) <= BatchSize(d, n)
  {
    var base := if Truthy(d) then d.value else Fraction(1, 1);
    var a := base.num * n;
    var d' := Corrected(d, Some(SizeReport(max, curr)));
    assert d' == Some(Fraction(base.num * max, base.den * curr));
    assert BatchSize(d, n) == a / base.den;
    assert d'.value.num * n == a * max by {
      MulComm3(base.num, max, n);
    }
    assert BatchSize(d', n) == (a * max) / (base.den * curr);
    ScaledQuotient(a, base.den, max, curr);
  }

  /** `(a × max) / (den × curr) <= a / den` when `max <= curr`. */
  lemma ScaledQuotient(a: nat, den: Pos, max: Pos, curr: Pos)
    requires max <= curr
    ensures (a * max) / (den * curr) <= a / den
  {
    var q := a / den;
    var q' := (a * max) / (den * curr);
    assert q' * (den * curr) <= a * max;
    assert a * max <= a * curr by {
      MulLeq(max, curr, a);
    }
    assert (q' * den) * curr <= a * curr;
    assert q' * den <= a by {
      if q' * den > a {
        MulStrict(a, q' * den, curr);
      }
    }
    DivLower(a, den, q');
  }

  lemma MulComm3(x: nat, y: nat, z: nat)
    ensures x * y * z == x * z * y
  {
  }

  lemma MulStrict(x: nat, y: nat, c: Pos)
    requires x < y
    ensures x * c < y * c
  {
  }

  lemma DivLower(a: nat, den: Pos, k: nat)
    requires k * den <= a
    ensures k <= a / den
  {
    var q := a / den;
    assert a == q * den + a % den;
    if k > q {
      MulLeqInt(q + 1, k, den);
      MulSucc(q, den);
    }
  }

  /** A retry need not make progress: with fraction 79/100 over ten records the batch
      holds 7, and after a report of 100 over a limit of 95 the corrected fraction
      7505/10000 still gives 7, so the same oversized batch is tried again. */
  lemma CorrectionCanKeepSize()
    ensures BatchSize(Some(Fraction(79, 100)), 10) == 7
    ensures BatchSize(Corrected(Some(Fraction(79, 100)), Some(SizeReport(95, 100))), 10) == 7
  {
  }
}

=== FILE: text.dfy ===
/** The string primitives the payout code leans on, as JavaScript defines them:
    `String.prototype.indexOf(..) !== -1`, `split(' ')`, `replace(/[^\d]/g, '')`
    and `Number(..)` applied to a string of ASCII digits. */
module Text {

  /** `p` occurs in `s` starting at position `i`. */
  predicate OccursAt(s: string, p: string, i: nat) {
    i + |p| <= |s| && s[i..i + |p|] == p
  }

  /** `s.indexOf(p) !== -1`, scanned left to right. */
  predicate Contains(s: string, p: string)
    decreases |s|
  {
    (|p| <= |s| && s[..|p|] == p) || (|s| > 0 && Contains(s[1..], p))
  }

  /** The scan finds `p` exactly when some position holds it. */
  lemma ContainsIffOccurs(s: string, p: string)
    ensures Contains(s, p) <==> exists i: nat :: OccursAt(s, p, i)
  {
    if Contains(s, p) {
      var i := ContainsWitness(s, p);
    }
    forall i: nat | OccursAt(s, p, i) ensures Contains(s, p) {
      OccursContains(s, p, i);
    }
  }

  /** A successful scan stops at a position that holds `p`. */
  lemma {:induction false} ContainsWitness(s: string, p: string) returns (i: nat)
    requires Contains(s, p)
    ensures OccursAt(s, p, i)
    decreases |s|
  {
    if |p| <= |s| && s[..|p|] == p {
      i := 0;
    } else {
      var j := ContainsWitness(s[1..], p);
      assert s[1..][j..j + |p|] == s[j + 1..j + 1 + |p|];
      i := j + 1;
    }
  }

  /** The scan reaches every position that holds `p`. */
  lemma {:induction false} OccursContains(s: string, p: string, i: nat)
    requires OccursAt(s, p, i)
    ensures Contains(s, p)
    decreases i
  {
    if i > 0 {
      assert s[1..][i - 1..i - 1 + |p|] == s[i..i + |p|];
      OccursContains(s[1..], p, i - 1);
    }
  }

  /** `s.split(sep)` for a one-character separator: the pieces between separators,
      empty pieces included, and `[""]` for the empty string. */
  function Split(s: string, sep: char): (parts: seq<string>)
    ensures |parts| >= 1
    ensures forall k :: 0 <= k < |parts| ==> sep !in parts[k]
    decreases |s|
  {
    if |s| == 0 then [""]
    else if s[0] == sep then [""] + Split(s[1..], sep)
    else
      var rest := Split(s[1..], sep);
      [[s[0]] + rest[0]] + rest[1..]
  }

  /** `parts.join(sep)`. */
  function Join(parts: seq<string>, sep: char): string
    requires |parts| >= 1
    decreases |parts|
  {
    if |parts| == 1 then parts[0] else parts[0] + [sep] + Join(parts[1..], sep)
  }

  /** Splitting loses nothing: joining the pieces with the separator gives the string back. */
  lemma {:induction false} JoinSplit(s: string, sep: char)
    ensures Join(Split(s, sep), sep) == s
    decreases |s|
  {
    if |s| == 0 {
    } else if s[0] == sep {
      JoinSplit(s[1..], sep);
      assert s == [sep] + s[1..];
    } else {
      var rest := Split(s[1..], sep);
      JoinSplit(s[1..], sep);
      if |rest| == 1 {
        assert s == [s[0]] + s[1..];
      } else {
        assert Join(rest, sep) == rest[0] + [sep] + Join(rest[1..], sep);
        assert s == [s[0]] + s[1..];
      }
    }
  }

  lemma {:induction false} SplitNoSep(a: string, sep: char)
    requires sep !in a
    ensures Split(a, sep) == [a]
    decreases |a|
  {
    if |a| > 0 {
      SplitNoSep(a[1..], sep);
      assert [a[0]] + a[1..] == a;
    }
  }

  /** Splitting at one separator splits the two sides independently. */
  lemma {:induction false} SplitAppend(a: string, sep: char, b: string)
    ensures Split(a + [sep] + b, sep) == Split(a, sep) + Split(b, sep)
    decreases |a|
  {
    if |a| == 0 {
      assert a + [sep] + b == [sep] + b;
    } else {
      assert (a + [sep] + b)[1..] == a[1..] + [sep] + b;
      SplitAppend(a[1..], sep, b);
    }
  }

  /** A string without digits splits into pieces without digits. */
  lemma {:induction false} SplitDigitFree(s: string, sep: char)
    requires DigitFree(s)
    ensures forall k :: 0 <= k < |Split(s, sep)| ==> DigitFree(Split(s, sep)[k])
    decreases |s|
  {
    if |s| > 0 {
      SplitDigitFree(s[1..], sep);
      if s[0] != sep {
        var rest := Split(s[1..], sep);
        var first := [s[0]] + rest[0];
        assert forall k :: 1 <= k < |first| ==> first[k] == rest[0][k - 1];
      }
    }
  }

  predicate IsDigit(c: char) {
    '0' <= c <= '9'
  }

  /** `s` holds no decimal digit. */
  predicate DigitFree(s: string) {
    forall k :: 0 <= k < |s| ==> !IsDigit(s[k])
  }

  lemma DigitFreeAppend(a: string, b: string)
    requires DigitFree(a) && DigitFree(b)
    ensures DigitFree(a + b)
  {
    assert forall k :: |a| <= k < |a + b| ==> (a + b)[k] == b[k - |a|];
  }

  /** `s.replace(/[^\d]/g, '')`: the ASCII digits of `s`, in order. */
  function Digits(s: string): (d: string)
    ensures forall k :: 0 <= k < |d| ==> IsDigit(d[k])
    ensures |d| <= |s|
    decreases |s|
  {
    if |s| == 0 then ""
    else if IsDigit(s[0]) then [s[0]] + Digits(s[1..])
    else Digits(s[1..])
  }

  /** Stripping non-digits works piecewise. */
  lemma {:induction false} DigitsAppend(a: string, b: string)
    ensures Digits(a + b) == Digits(a) + Digits(b)
    decreases |a|
  {
    if |a| > 0 {
      assert (a + b)[0] == a[0];
      assert (a + b)[1..] == a[1..] + b;
      DigitsAppend(a[1..], b);
    } else {
      assert a + b == b;
    }
  }

  /** A string without digits strips to nothing. */
  lemma {:induction false} DigitsOfDigitFree(s: string)
    requires DigitFree(s)
    ensures Digits(s) == ""
    decreases |s|
  {
    if |s| > 0 {
      DigitsOfDigitFree(s[1..]);
    }
  }

  /** `n.toString()` for a natural number: its decimal digits, most significant first. */
  function Show(n: nat): (s: string)
    ensures |s| >= 1
    ensures forall k :: 0 <= k < |s| ==> IsDigit(s[k])
    decreases n
  {
    if n < 10 then [('0' as int + n) as char]
    else Show(n / 10) + [('0' as int + n % 10) as char]
  }

  /** Digit-only strings survive the stripping unchanged. */
  lemma {:induction false} DigitsOfDigitsOnly(d: string)
    requires forall k :: 0 <= k < |d| ==> IsDigit(d[k])
    ensures Digits(d) == d
    decreases |d|
  {
    if |d| > 0 {
      DigitsOfDigitsOnly(d[1..]);
      assert [d[0]] + d[1..] == d;
    }
  }

  /** The value of a decimal digit character. */
  function DigitValue(c: char): int {
    c as int - '0' as int
  }

  /** `Number(d)` for a string of digits: the decimal value, and 0 for the empty string
      (read left to right, each digit shifting the value read so far one place). */
  function DecimalValue(d: string): (v: int)
    ensures (forall k :: 0 <= k < |d| ==> IsDigit(d[k])) ==> v >= 0
  {
    ReadDigits(d, 0)
  }

  function ReadDigits(d: string, acc: int): (v: int)
    ensures acc >= 0 && (forall k :: 0 <= k < |d| ==> IsDigit(d[k])) ==> v >= acc
    decreases |d|
  {
    if |d| == 0 then acc else ReadDigits(d[1..], acc * 10 + DigitValue(d[0]))
  }

  lemma {:induction false} ReadDigitsAppend(a: string, b: string, acc: int)
    ensures ReadDigits(a + b, acc) == ReadDigits(b, ReadDigits(a, acc))
    decreases |a|
  {
    if |a| > 0 {
      assert (a + b)[0] == a[0];
      assert (a + b)[1..] == a[1..] + b;
      ReadDigitsAppend(a[1..], b, acc * 10 + DigitValue(a[0]));
    } else {
      assert a + b == b;
    }
  }

  /** Reading back what `Show` wrote gives the number: `Number(String(n)) == n`. */
  lemma {:induction false} DecimalValueShow(n: nat)
    ensures DecimalValue(Show(n)) == n
    decreases n
  {
    if n >= 10 {
      var last := [('0' as int + n % 10) as char];
      assert Show(n) == Show(n / 10) + last;
      DecimalValueShow(n / 10);
      ReadDigitsAppend(Show(n / 10), last, 0);
      assert DigitValue(last[0]) == n % 10;
      assert last[1..] == "";
      assert ReadDigits(last, n / 10) == (n / 10) * 10 + n % 10;
    } else {
      var d := [('0' as int + n) as char];
      assert Show(n) == d;
      assert DigitValue(d[0]) == n;
      assert d[1..] == "";
      assert ReadDigits(d, 0) == ReadDigits(d[1..], DigitValue(d[0]));
    }
  }
}
